=== FILE: README.md ===
# Habit tracker core in Dafny

This project models the domain logic of a habit-tracking HTTP API. The API has two services and five request schemas.

- **Habits service.** Habits belong to a user. The goal type of a habit decides how progress is logged:
  - a *times per day* habit takes check-ins;
  - a *minutes per day* habit takes time entries, whose duration is rounded to whole minutes.

  Every read or write of a habit, check-in or time entry first checks that the requester owns it. Absent records and other users' records both answer "not found". The service also covers a paginated habit listing, a per-habit history and a general history that merges both event kinds.
- **Reports service.** A dashboard counts the user's habits and check-ins and sums their minutes over a period. A heatmap lists the instants of all the user's events, oldest first.
- **Request schemas.** These are the rules a body or query must pass before it reaches a service. The model has create-habit, update-habit, date-range, log-time and list-habits.

The database becomes an immutable `Store` with three tables: habits, check-ins and time entries.

- Every query is a filter over a table. Queries that carry an owner check use an inner join from events to their habits.
- Every writing operation returns the new store together with its result. A thrown exception becomes `Err(NotFound)` or `Err(BadRequest)`.
- Instants are integer milliseconds.
- Things the model cannot compute are parameters:
  - the current instant;
  - generated ids;
  - the default periods, such as the current week, month or year;
  - the time-zone dependent end-of-day normalisation.

| file | module | models |
|---|---|---|
| `wrappers.dfy` | `Wrappers` | `Option` and `Result` |
| `seqs.dfy` | `Seqs` | filter, map, sum, lookup, removal, and their laws |
| `sorting.dfy` | `Sorting` | a stable sort by an integer key, with permutation and order proved |
| `domain.dfy` | `Domain` | the entities, the store, primary-key lookups, and the joined event queries |
| `create_habit_dto.dfy` | `CreateHabitSchema` | the create body, including the reminder-time pattern |
| `update_habit_dto.dfy` | `UpdateHabitSchema` | the all-optional update body |
| `date_range_dto.dfy` | `DateRangeSchema` | the date-range query, and how a query resolves to a period |
| `log_time_dto.dfy` | `LogTimeSchema` | the time-log body |
| `list_habits_dto.dfy` | `ListHabitsSchema` | the listing query |
| `habits_service.dfy` | `HabitsService` | every operation of the habits service |
| `store_invariant.dfy` | `StoreInvariant` | the store invariant that every writing operation keeps |
| `reports_service.dfy` | `ReportsService` | dashboard and heatmap |
| `consistency.dfy` | `Consistency` | how history, heatmap and dashboard agree over one period |

**Goal type on update.** One might expect a habit's goal type to be fixed at creation. The update schema, however, is the create schema with every field optional, and the update operation merges whatever was sent. So an update may change the goal type. The model follows the code: `UpdateHabitSchema.GoalTypeIsUpdatable` shows such a body is accepted, and `HabitsService.ApplyUpdate` applies it. Events logged before the change stay in the store. The per-habit history afterwards reads only the table that the new goal type selects.

## Model

| member | source | states |
|---|---|---|
| Domain.ParseGoalTypeRoundTrip | src/habits/dto/create-habit.dto.ts:14 | the goal-type enum accepts exactly its two wire names, and parsing a goal type's name gives that goal type back |
| Domain.JoinedSelectionAgrees | src/reports/reports.service.ts:24-43 | the relation filter `habit: { user_id }` plus the period filter selects exactly those events whose referenced habit belongs to the user and whose instant is in the period, in table order |
| CreateHabitSchema.ParseCreateHabit | src/habits/dto/create-habit.dto.ts:7-21 | a create body whose required fields are all present and well typed is accepted exactly when: the name is non-empty; at least one weekday is given and every weekday is in 0..6; the goal type is an enum value; the goal value is positive; and every reminder time matches the pattern. An accepted body carries its fields over. A rejection names each failing field and no other |
| CreateHabitSchema.TimeRegexMeansClockTime | src/habits/dto/create-habit.dto.ts:5 | the anchored reminder-time pattern accepts a string exactly when it is an hour 0-23, written with one or two digits, then a colon, then a minute 00-59 written with two digits |
| CreateHabitSchema.TimeRegexExamples | src/habits/dto/create-habit.dto.ts:5 | "8:30", "08:30", "23:59" and "0:00" are accepted; "24:00", "09:5", "7:60" and "" are rejected |
| CreateHabitSchema.ReminderTimesAreClockTimes | src/habits/dto/create-habit.dto.ts:18-20 | the reminder-time list passes exactly when it is omitted or every entry in it is a valid clock time |
| UpdateHabitSchema.ParseUpdateHabit | src/habits/dto/update-habit.dto.ts:4 | an update body is accepted exactly when each present field obeys its create rule. A rejection names exactly the present fields that break their rule. An accepted body carries its fields over |
| UpdateHabitSchema.EmptyUpdateIsValid | src/habits/dto/update-habit.dto.ts:4 | `{}` is a valid update that asks to change nothing |
| UpdateHabitSchema.FullUpdateMatchesCreate | src/habits/dto/update-habit.dto.ts:4 | with every field present, an update body is valid exactly when the same create body is, and it is rejected with the same issues |
| UpdateHabitSchema.GoalTypeIsUpdatable | src/habits/dto/update-habit.dto.ts:4 | an update that only names a goal type is accepted and asks to change the goal type |
| DateRangeSchema.ParseDateRange | src/common/dto/date-range.dto.ts:4-15 | a range missing either bound is valid. With both bounds it is valid exactly when end ≥ start. A violation is reported on `endDate` alone |
| DateRangeSchema.SingleDayRangeIsValid | src/common/dto/date-range.dto.ts:8-9 | the same day as start and end is accepted |
| DateRangeSchema.ResolvePeriod | src/habits/habits.service.ts:142-149 | a range the schema accepted, with both days given, resolves to a period that holds both days, as long as moving the end date to the end of its day does not move it backwards. The same resolution is repeated at src/habits/habits.service.ts:211-217 and src/reports/reports.service.ts:13-18 |
| DateRangeSchema.GivenBoundsIgnoreFallback | src/habits/habits.service.ts:142-149 | when the query gives both dates, the default period plays no part: any two defaults resolve to the same period |
| DateRangeSchema.BoundsDefaultIndependently | src/habits/habits.service.ts:142-149 | each resolved bound depends only on its own query field or its own default, never on the other bound |
| LogTimeSchema.ParseLogTime | src/habits/dto/log-time.dto.ts:4-17 | a time-log body is accepted exactly when both instants are present and end > start. A missing field is reported on its own path, so both are reported when both are missing. `end_time` is reported exactly when it is missing or, with both present, not after the start; an order violation is reported on `end_time` alone |
| LogTimeSchema.EmptySessionIsRejected | src/habits/dto/log-time.dto.ts:9-12 | equal start and end instants are rejected on `end_time` |
| ListHabitsSchema.ParseListHabits | src/habits/dto/list-habits.dto.ts:5-13 | a listing query is accepted exactly when page ≥ 1, perPage is in 1..100, the goal type is an enum value and the order is "asc" or "desc" (each only when present). An accepted query keeps its values, maps "asc" and "desc" to their directions and is within the paging bounds. A refused query names `page`, `perPage`, `goal_type` and `order` exactly when that field breaks its rule |
| ListHabitsSchema.ParseOrder | src/habits/dto/list-habits.dto.ts:12 | exactly "asc" and "desc" parse, and "asc" is the only string that gives ascending |
| HabitsService.RoundMinutes | src/habits/habits.service.ts:121-123 | the rounded duration m is the whole minute nearest to the milliseconds, with a half minute rounding up: 60000·m − 30000 ≤ ms < 60000·m + 30000 |
| HabitsService.AtLeastOneMinute | src/habits/habits.service.ts:121-127 | a session rounds to at least one minute exactly when it lasts at least thirty seconds |
| HabitsService.RoundingExamples | src/habits/habits.service.ts:121-127 | 30 minutes give 30. Ten seconds give 0, so the session is rejected. 90 seconds give 2. 30 s gives 1 and 29.999 s gives 0 |
| HabitsService.Create | src/habits/habits.service.ts:19-31 | a created habit is owned by the requester and carries the body's fields. Its reminder times are `[]` when omitted. Exactly that habit is appended to the store |
| HabitsService.FindOne | src/habits/habits.service.ts:63-73 | a habit is returned only when it has the requested id and belongs to the requester; otherwise the result is NotFound. With unique ids, it is found exactly when such a habit exists |
| HabitsService.CreateThenFindOne | src/habits/habits.service.ts:19-73 | a habit just created is found by its owner and by nobody else |
| HabitsService.ContainsIgnoringCaseExamples | src/habits/habits.service.ts:38 | every name contains the empty search, and a search matches whatever the letter case of either side |
| HabitsService.Listing | src/habits/habits.service.ts:36-49 | the listing holds exactly those of the requester's habits that match the search and the goal type, each once, ordered by creation time in the requested direction (descending by default) |
| HabitsService.CeilDiv | src/habits/habits.service.ts:58 | `lastPage` is the fewest pages of perPage items that hold all the items |
| HabitsService.FindAll | src/habits/habits.service.ts:33-61 | page and perPage default to 1 and 10. `total` is the size of the whole listing. The page is the run of at most perPage listing items that starts `(page-1)·perPage` items in. Every item belongs to the requester and matches the filters. `lastPage` is ceil(total/perPage) |
| HabitsService.PageHasDataIffWithinLastPage | src/habits/habits.service.ts:47-58 | a page has items exactly when its number is at most `lastPage` |
| HabitsService.PageLocatesItem | src/habits/habits.service.ts:46-47 | item i of the listing is item i mod perPage of page ⌊i/perPage⌋+1, so the pages cover the listing |
| HabitsService.FifteenHabitsExample | src/habits/habits.service.ts:34-58 | fifteen matching habits with perPage 10: page 2 holds five, and there are two pages |
| HabitsService.ValidatedQueryBounds | src/habits/dto/list-habits.dto.ts:6-7 | a validated query gives a skip ≥ 0 and a take in 1..100 |
| HabitsService.ApplyUpdate | src/habits/habits.service.ts:78-82 | the `...dto` merge: each field present in the update replaces the stored one, each absent field keeps its stored value, and the id, the owner and the creation instant never change |
| HabitsService.ApplyUpdateLaws | src/habits/habits.service.ts:75-84 | merging an empty update changes nothing, and merging the same update twice is merging it once |
| HabitsService.Update | src/habits/habits.service.ts:75-84 | an update succeeds exactly when the requester owns the habit. On failure the store is unchanged and the result is NotFound. On success only the present fields change, id, owner and creation time never change, and the habit is replaced in place |
| HabitsService.Remove | src/habits/habits.service.ts:86-92 | a removal succeeds exactly when the requester owns the habit. On failure the store is unchanged. On success exactly that habit leaves the habit table, and its check-ins and time entries leave theirs while every other event stays |
| HabitsService.AddCheckIn | src/habits/habits.service.ts:94-107 | a check-in succeeds exactly when the requester owns a times-per-day habit. It fails with NotFound for a missing or foreign habit and with BadRequest for a minutes-per-day habit, and the store is then unchanged. On success exactly one check-in, for that habit and stamped now, is appended |
| HabitsService.LogTime | src/habits/habits.service.ts:109-137 | a session is logged exactly when the requester owns a minutes-per-day habit and the session lasts at least 30 s. The stored duration is the rounded minutes, at least 1. A failure leaves the store unchanged, and NotFound means the habit is missing or foreign. On success exactly one entry is appended |
| HabitsService.ValidBodyMayStillBeRefused | src/habits/habits.service.ts:118-127 | any body the log-time schema accepts whose session is under 30 s is still refused by the service |
| HabitsService.OneMillisecondSessionExample | src/habits/dto/log-time.dto.ts:9-17 | a one-millisecond session passes the schema's strict order and rounds to zero minutes |
| HabitsService.CheckInsOfHabit | src/habits/habits.service.ts:151-161 | the result holds exactly that habit's check-ins whose timestamp lies in the period, newest first |
| HabitsService.TimeEntriesOfHabit | src/habits/habits.service.ts:162-173 | the result holds exactly that habit's time entries whose start lies in the period, newest first |
| HabitsService.GetHistory | src/habits/habits.service.ts:139-174 | a history is returned exactly when the requester owns the habit, otherwise NotFound. A times-per-day habit yields its check-ins and a minutes-per-day habit its time entries, never both, over the resolved period |
| HabitsService.RemoveCheckIn | src/habits/habits.service.ts:176-191 | with unique ids, the removal succeeds exactly when a check-in with that id exists and its habit belongs to the requester; otherwise the store is unchanged and the result is NotFound. On success exactly that record is removed |
| HabitsService.RemoveTimeEntry | src/habits/habits.service.ts:193-208 | with unique ids, the removal succeeds exactly when a time entry with that id exists and its habit belongs to the requester; otherwise the store is unchanged and the result is NotFound. On success exactly that record is removed |
| HabitsService.GetGeneralHistory | src/habits/habits.service.ts:210-261 | the result is a permutation of the requester's projected check-ins followed by their projected time entries in the period, one item per event, sorted newest first. On an equal date, no time entry comes before a check-in, because the stable sort keeps the concatenation's order |
| HabitsService.GeneralHistoryItems | src/habits/habits.service.ts:219-258 | every history item is an event of one of the requester's habits, dated in the period. A check-in is valued 1. A time entry is valued at its minutes and dated by its start |
| StoreInvariant.CreateKeepsWellFormed | src/habits/habits.service.ts:19-31 | creating a habit with a fresh id keeps ids unique and every event's habit reference resolving |
| StoreInvariant.UpdateKeepsWellFormed | src/habits/habits.service.ts:75-84 | an update keeps the store invariant |
| StoreInvariant.RemoveKeepsWellFormed | src/habits/habits.service.ts:86-92 | removing a habit together with its events keeps the store invariant: no event is left referencing the removed habit |
| StoreInvariant.AddCheckInKeepsWellFormed | src/habits/habits.service.ts:94-107 | a check-in with a fresh id keeps the store invariant |
| StoreInvariant.LogTimeKeepsWellFormed | src/habits/habits.service.ts:109-137 | a logged session keeps the store invariant, including "every entry lasts at least one rounded minute" |
| StoreInvariant.RemoveCheckInKeepsWellFormed | src/habits/habits.service.ts:176-191 | removing a check-in keeps the store invariant |
| StoreInvariant.RemoveTimeEntryKeepsWellFormed | src/habits/habits.service.ts:193-208 | removing a time entry keeps the store invariant |
| ReportsService.GetDashboard | src/reports/reports.service.ts:11-58 | the period returned is the one resolved from the query. The habit count is the number of habits whose owner is the requester, whatever the period, and is at least one when they have any. The check-in count and the minutes cover the requester's events in that period |
| ReportsService.TotalHabitsCountsOwnedHabits | src/reports/reports.service.ts:20-22 | with unique habit ids, the habit count equals the size of the set of the requester's habits |
| ReportsService.TotalHabitsIgnoresPeriod | src/reports/reports.service.ts:20-22 | the habit count does not depend on the requested period |
| ReportsService.DashboardCountsOwnedEvents | src/reports/reports.service.ts:24-48 | the check-in count is the number of check-ins whose habit belongs to the requester and whose timestamp lies in the period. The minutes are the sum of the durations of that user's time entries starting in the period |
| ReportsService.MinutesAtLeastEntries | src/reports/reports.service.ts:34-48 | in a well-formed store, the minutes are at least the number of counted time entries |
| ReportsService.DashboardMinutesExample | src/reports/reports.service.ts:45-48 | sessions of 30, 45 and 15 minutes, all of the requester's habits and in the period, total 90 minutes |
| ReportsService.GetHeatmap | src/reports/reports.service.ts:60-101 | the result is a permutation of the matching check-in instants followed by the matching session starts, one per event with no deduplication, sorted oldest first |
| ReportsService.HeatmapShowsOwnEventsOnly | src/reports/reports.service.ts:68-91 | every instant on the heatmap is in the period and is the instant of a check-in or a session start of one of the requester's habits |
| ReportsService.HabitFilterOnlyNarrows | src/reports/reports.service.ts:68-71 | naming a habit selects a sub-multiset of the events selected without it, so never more instants |
| ReportsService.ForeignHabitGivesEmptyHeatmap | src/reports/reports.service.ts:68-71 | naming another user's habit yields an empty heatmap, because the owner filter is always applied |
| Sorting.SortBy | src/reports/reports.service.ts:100 | sorting returns a permutation of its input, ordered by the key in the requested direction |
| Sorting.SortByIsStable | src/habits/habits.service.ts:260 | the sort is stable: when the input is ordered by some rank, elements with equal keys come out in rank order, as with `Array.prototype.sort` |
| Consistency.HistoryMirrorsHeatmap | src/reports/reports.service.ts:93-100 | when both bounds are given, the general history's dates are exactly the heatmap's instants in reverse order |
| Consistency.HistoryValuesTotalDashboard | src/habits/habits.service.ts:243-258 | when both bounds are given, the general history's values sum to the dashboard's check-in count plus its minutes |

## Left out

- **Framework plumbing.** Controllers, the application module, the bootstrap and the lint configuration only forward to the services.
- **Authentication.** Sign-in and its schema rest on password hashing and token signing, which are foreign library calls. The route guard is not part of this model.
- **Seed script.** The database seed script is database I/O driven by random numbers.
- **Exception filter.** The global exception filter registered at start-up only maps exceptions to HTTP responses. It is not modelled; the model's errors are the `NotFound` and `BadRequest` outcomes the services raise.
- **The heatmap query schema.** Its only own rule is a library format check on the habit id, merged into the date range. `ReportsService.HeatmapQuery` stands in for it: an optional habit id plus a date range.
- **Library format checks.** Zod's date and date-time string formats, its coercion of query strings to numbers, and JavaScript's non-integer numbers are not modelled. Dates arrive already turned into instants, and numbers arrive as integers. So the integer-only rules on weekdays, goal value, page and perPage hold by typing.
- **Issue details.** A schema rejection reports top-level field names only. Zod's nested paths, such as an array index, and the error messages are not modelled.
- **Date arithmetic.** Default periods (the current month, week or year) and end-of-day normalisation depend on the clock and the time zone. They are the parameters `fallback` and `endOfDay` of `DateRangeSchema.ResolvePeriod`.
- **Generated values.** Database-generated ids and the creation instant are parameters. That a generated id is fresh is a precondition of `Create`, `AddCheckIn` and `LogTime`.
- **Cascade delete.** The cascading delete of a habit's events lives in the database schema, which is not part of this model. `HabitsService.Remove` assumes it.
- **Concurrency.** Several operations read the store more than once, and the model treats each operation's reads as one store snapshot. This covers the listing's two queries in one transaction and the heatmap's two parallel queries. It also covers the dashboard's three separate awaited reads (src/reports/reports.service.ts:20-48) and the general history's two sequential reads (src/habits/habits.service.ts:219-241). A write between two of these reads is not modelled. Consistency.HistoryValuesTotalDashboard compares the two operations over that same snapshot.
- **Floating point.** `Math.round` on a double is modelled exactly on integer milliseconds.
- **Missing habit on an event.** An event whose habit is missing would break the foreign key, so it cannot arise in a well-formed store (`StoreInvariant`). Such an event drops out of every joined query. Deleting it answers NotFound in the model; the source would instead fail with a type error when it reads the missing habit's owner.
- **Letter case.** Case-insensitive search folds ASCII letters only. The database collation beyond ASCII is not modelled.
- CreateHabitSchema.ParseCreateHabit: the body's required fields have plain types, so a body that omits `name`, `days_of_week`, `goal_type` or `goal_value`, or gives one of them the wrong JSON type, cannot be expressed. Zod rejects such a body with a "Required" or type issue at that field's path; the model states the rules only for bodies whose fields are all present and well typed.
- LogTimeSchema.ParseLogTime: a field that is absent is `None`, but a present date-time string that is malformed is not modelled. For such a string Zod reports its format issue and still runs the refinement, which then also reports `end_time`; the model's `None` reports only the missing field's path.
- HabitsService.FindAll: requires a query within the validated paging bounds. The listing route always validates its query first. An unvalidated perPage of 0 would make the source divide by zero.
- HabitsService.GetGeneralHistory: states that on an equal date check-ins come before time entries, which the stable sort of the concatenation fixes. It does not state the order among two check-ins, or two time entries, with equal dates. That order comes from the database's `orderBy`, which leaves ties unspecified.
- ReportsService.GetHeatmap: does not state the order among equal instants, which are indistinguishable anyway.
- HabitsService.CheckInsOfHabit: does not state the order among check-ins with equal timestamps, which the database leaves unspecified.
- HabitsService.TimeEntriesOfHabit: does not state the order among entries with equal start times, which the database leaves unspecified.
- HabitsService.RemoveCheckIn: states "succeeds exactly when such a check-in exists" only for a table whose ids are unique, which the database guarantees.
- HabitsService.RemoveTimeEntry: states "succeeds exactly when such an entry exists" only for a table whose ids are unique, which the database guarantees.
- HabitsService.FindOne: states "found exactly when such a habit exists" only for a habit table whose ids are unique, which the database guarantees.

=== FILE: consistency.dfy ===
/**
 * How the three read models of the same events agree: over one period, the general history
 * is the heatmap read backwards, and its values add up to the dashboard's check-ins plus minutes.
 */
module Consistency {
  import opened Wrappers
  import opened Seqs
  import opened Sorting
  import opened Domain
  import opened DateRangeSchema
  import opened HabitsService
  import opened ReportsService

  /** Projecting a sorted sequence to its keys gives a sorted sequence of integers. */
  lemma MapKeepsSorted<T>(s: seq<T>, key: T -> int, dir: Direction)
    requires SortedBy(s, key, dir)
    ensures SortedBy(Map(s, key), Itself, dir)
  {
    var m := Map(s, key);
    forall i, j | 0 <= i < j < |m|
      ensures InOrder(Itself(m[i]), Itself(m[j]), dir)
    {
      assert InOrder(key(s[i]), key(s[j]), dir);
    }
  }

  /** The history's items, projected to their dates, hold the heatmap's instants. */
  lemma HistoryDatesAreHeatmapDates(s: Store, userId: Id, p: Period)
    ensures Map(HistoryItems(s, userId, p), ItemDate) == HeatmapDates(s, userId, None, p)
  {
    var cs := CheckInsMatching(s, userId, None, p);
    var ts := TimeEntriesMatching(s, userId, None, p);
    MapConcat(Map(cs, CheckInItem), Map(ts, TimeEntryItem), ItemDate);
    MapCompose(cs, CheckInItem, ItemDate, JoinedCheckInTime);
    MapCompose(ts, TimeEntryItem, ItemDate, JoinedEntryStart);
  }

  /**
   * With both bounds given, the general history's dates are exactly the heatmap's
   * instants in reverse: newest first instead of oldest first, nothing added or lost.
   */
  lemma HistoryMirrorsHeatmap(s: Store, userId: Id, q: DateRangeDto, f1: Period, f2: Period, endOfDay: Instant -> Instant)
    requires q.startDate.Some? && q.endDate.Some?
    ensures Map(GetGeneralHistory(s, userId, q, f1, endOfDay), ItemDate)
         == Reverse(GetHeatmap(s, userId, HeatmapQuery(None, q), f2, endOfDay))
  {
    var p := ResolvePeriod(q, f1, endOfDay);
    GivenBoundsIgnoreFallback(q, f1, f2, endOfDay);
    var history := GetGeneralHistory(s, userId, q, f1, endOfDay);
    var heatmap := GetHeatmap(s, userId, HeatmapQuery(None, q), f2, endOfDay);
    var dates := Map(history, ItemDate);
    MapKeepsPermutation(history, HistoryItems(s, userId, p), ItemDate);
    HistoryDatesAreHeatmapDates(s, userId, p);
    ReverseKeepsMultiset(heatmap);
    MapKeepsSorted(history, ItemDate, Descending);
    ReverseOfAscendingIsDescending(heatmap);
    SortedPermutationsAreEqual(dates, Reverse(heatmap), Descending);
  }

  /**
   * With both bounds given, the history's values add up to the dashboard's check-in count
   * plus its minutes: each check-in counts one, each session its minutes.
   */
  lemma HistoryValuesTotalDashboard(s: Store, userId: Id, q: DateRangeDto, f1: Period, f2: Period, endOfDay: Instant -> Instant)
    requires q.startDate.Some? && q.endDate.Some?
    ensures SumBy(GetGeneralHistory(s, userId, q, f1, endOfDay), ItemValue)
         == GetDashboard(s, userId, q, f2, endOfDay).overview.checkIns + GetDashboard(s, userId, q, f2, endOfDay).overview.minutes
  {
    var p := ResolvePeriod(q, f1, endOfDay);
    GivenBoundsIgnoreFallback(q, f1, f2, endOfDay);
    var cs := CheckInsMatching(s, userId, None, p);
    var ts := TimeEntriesMatching(s, userId, None, p);
    SumByKeepsPermutation(GetGeneralHistory(s, userId, q, f1, endOfDay), HistoryItems(s, userId, p), ItemValue);
    SumByConcat(Map(cs, CheckInItem), Map(ts, TimeEntryItem), ItemValue);
    SumByConstant(Map(cs, CheckInItem), ItemValue, 1);
    SumByMap(ts, TimeEntryItem, ItemValue, JoinedMinutes);
  }
}

=== FILE: create_habit_dto.dfy ===
/**
 * The rules of `createHabitSchema`: what a request body must satisfy before a habit is created.
 * A parse either yields the typed body or the names of the fields that broke a rule.
 */
module CreateHabitSchema {
  import opened Wrappers
  import opened Domain

  /** The body as it arrives; `goalType` is still a string and `reminderTimes` may be absent. */
  datatype CreateHabitInput = CreateHabitInput(
    name: string,
    daysOfWeek: seq<int>,
    goalType: string,
    goalValue: int,
    reminderTimes: Option<seq<string>>)

  /** The body once it has passed the schema. */
  datatype CreateHabitDto = CreateHabitDto(
    name: string,
    daysOfWeek: seq<int>,
    goalType: GoalType,
    goalValue: int,
    reminderTimes: Option<seq<string>>)

  predicate IsDigit(c: char) {
    '0' <= c <= '9'
  }

  /** The hour group `([0-1]?[0-9]|2[0-3])`, matched against the whole of `h`. */
  predicate HourGroup(h: string) {
    || (|h| == 1 && IsDigit(h[0]))
    || (|h| == 2 && '0' <= h[0] <= '1' && IsDigit(h[1]))
    || (|h| == 2 && h[0] == '2' && '0' <= h[1] <= '3')
  }

  /** The minute part `[0-5][0-9]`, matched against the whole of `m`. */
  predicate MinuteGroup(m: string) {
    |m| == 2 && '0' <= m[0] <= '5' && IsDigit(m[1])
  }

  /** `timeRegex`, the anchored `^([0-1]?[0-9]|2[0-3]):[0-5][0-9]$`: some split of `s` matches it. */
  predicate MatchesTimeRegex(s: string) {
    exists k :: 0 <= k < |s| && HourGroup(s[..k]) && s[k] == ':' && MinuteGroup(s[k + 1..])
  }

  function DigitValue(c: char): int {
    c as int - '0' as int
  }

  /**
   * A clock time as a person reads it: an hour from 0 to 23 written with one or two
   * digits, a colon, then a minute from 00 to 59 written with two digits.
   */
  predicate IsClockTime(s: string) {
    || (|s| == 4 && IsDigit(s[0]) && s[1] == ':' && IsDigit(s[2]) && IsDigit(s[3])
        && DigitValue(s[2]) * 10 + DigitValue(s[3]) <= 59)
    || (|s| == 5 && IsDigit(s[0]) && IsDigit(s[1]) && DigitValue(s[0]) * 10 + DigitValue(s[1]) <= 23
        && s[2] == ':' && IsDigit(s[3]) && IsDigit(s[4]) && DigitValue(s[3]) * 10 + DigitValue(s[4]) <= 59)
  }

  /** The regular expression accepts exactly the clock times. */
  lemma TimeRegexMeansClockTime(s: string)
    ensures MatchesTimeRegex(s) <==> IsClockTime(s)
  {
    if MatchesTimeRegex(s) {
      var k :| 0 <= k < |s| && HourGroup(s[..k]) && s[k] == ':' && MinuteGroup(s[k + 1..]);
      assert s[k + 1..][0] == s[k + 1] && s[k + 1..][1] == s[k + 2];
      if k == 1 {
        assert s[..k][0] == s[0];
      } else {
        assert s[..k][0] == s[0] && s[..k][1] == s[1];
      }
    }
    if IsClockTime(s) {
      var k := if |s| == 4 then 1 else 2;
      assert s[k + 1..] == [s[k + 1], s[k + 2]];
      if k == 1 {
        assert s[..k] == [s[0]];
      } else {
        assert s[..k] == [s[0], s[1]];
      }
      assert HourGroup(s[..k]) && s[k] == ':' && MinuteGroup(s[k + 1..]);
    }
  }

  /** Examples from the schema's message "Use o formato HH:mm": both hour widths pass, a bad hour or minute fails. */
  lemma TimeRegexExamples()
    ensures MatchesTimeRegex("8:30") && MatchesTimeRegex("08:30") && MatchesTimeRegex("23:59") && MatchesTimeRegex("0:00")
    ensures !MatchesTimeRegex("24:00") && !MatchesTimeRegex("09:5") && !MatchesTimeRegex("7:60") && !MatchesTimeRegex("")
  {
    TimeRegexMeansClockTime("8:30");
    TimeRegexMeansClockTime("08:30");
    TimeRegexMeansClockTime("23:59");
    TimeRegexMeansClockTime("0:00");
    TimeRegexMeansClockTime("24:00");
    TimeRegexMeansClockTime("09:5");
    TimeRegexMeansClockTime("7:60");
    TimeRegexMeansClockTime("");
  }

  /** `z.string().min(1)`. */
  predicate NameOk(name: string) {
    |name| >= 1
  }

  /** `z.array(z.number().int().min(0).max(6)).min(1)`. */
  predicate DaysOfWeekOk(days: seq<int>) {
    |days| >= 1 && forall i :: 0 <= i < |days| ==> 0 <= days[i] <= 6
  }

  /** `z.number().int().positive()`. */
  predicate GoalValueOk(v: int) {
    v > 0
  }

  /** `z.array(z.string().regex(timeRegex)).optional()`. */
  predicate ReminderTimesOk(ts: Option<seq<string>>) {
    ts.None? || forall i :: 0 <= i < |ts.value| ==> MatchesTimeRegex(ts.value[i])
  }

  lemma ReminderTimesAreClockTimes(ts: Option<seq<string>>)
    ensures ReminderTimesOk(ts) <==> (ts.Some? ==> forall k :: 0 <= k < |ts.value| ==> IsClockTime(ts.value[k]))
  {
    if ts.Some? {
      forall k | 0 <= k < |ts.value| {
        TimeRegexMeansClockTime(ts.value[k]);
      }
    }
  }

  /** The field name when `ok` fails, nothing otherwise. */
  function IssueIf(ok: bool, path: string): seq<string> {
    if ok then [] else [path]
  }

  /** The names of the failing fields, in the schema's field order. */
  function CreateIssues(i: CreateHabitInput): seq<string> {
    IssueIf(NameOk(i.name), "name")
    + IssueIf(DaysOfWeekOk(i.daysOfWeek), "days_of_week")
    + IssueIf(ParseGoalType(i.goalType).Some?, "goal_type")
    + IssueIf(GoalValueOk(i.goalValue), "goal_value")
    + IssueIf(ReminderTimesOk(i.reminderTimes), "reminder_times")
  }

  /** `createHabitSchema.parse`. */
  function ParseCreateHabit(i: CreateHabitInput): (r: Result<CreateHabitDto, seq<string>>)
    ensures r.Ok? <==>
      && |i.name| >= 1
      && |i.daysOfWeek| >= 1 && (forall k :: 0 <= k < |i.daysOfWeek| ==> 0 <= i.daysOfWeek[k] <= 6)
      && (i.goalType == "TIMES_PER_DAY" || i.goalType == "MINUTES_PER_DAY")
      && i.goalValue > 0
      && (i.reminderTimes.Some? ==> forall k :: 0 <= k < |i.reminderTimes.value| ==> IsClockTime(i.reminderTimes.value[k]))
    ensures r.Ok? ==>
      && r.value.name == i.name && r.value.daysOfWeek == i.daysOfWeek && r.value.goalValue == i.goalValue
      && GoalTypeName(r.value.goalType) == i.goalType && r.value.reminderTimes == i.reminderTimes
    ensures r.Err? ==> |r.error| >= 1
    ensures r.Err? ==> ("name" in r.error <==> |i.name| == 0)
    ensures r.Err? ==> ("days_of_week" in r.error <==> !DaysOfWeekOk(i.daysOfWeek))
    ensures r.Err? ==> ("goal_type" in r.error <==> ParseGoalType(i.goalType).None?)
    ensures r.Err? ==> ("goal_value" in r.error <==> i.goalValue <= 0)
    ensures r.Err? ==> ("reminder_times" in r.error <==> !ReminderTimesOk(i.reminderTimes))
  {
    ReminderTimesAreClockTimes(i.reminderTimes);
    var issues := CreateIssues(i);
    if issues == [] then
      Ok(CreateHabitDto(i.name, i.daysOfWeek, ParseGoalType(i.goalType).value, i.goalValue, i.reminderTimes))
    else
      Err(issues)
  }
}

=== FILE: date_range_dto.dfy ===
/**
 * `dateRangeSchema`: two optional calendar dates, refined so that the end is not before the start.
 * Dates are already turned into instants; the `.date()` format check is not part of this model.
 */
module DateRangeSchema {
  import opened Wrappers
  import opened Domain

  datatype DateRangeDto = DateRangeDto(startDate: Option<Instant>, endDate: Option<Instant>)

  /** `dateRangeSchema.parse`: the refinement reports its failure on the `endDate` path. */
  function ParseDateRange(q: DateRangeDto): (r: Result<DateRangeDto, seq<string>>)
    ensures q.startDate.None? || q.endDate.None? ==> r.Ok?
    ensures q.startDate.Some? && q.endDate.Some? ==> (r.Ok? <==> q.endDate.value >= q.startDate.value)
    ensures r.Ok? ==> r.value == q
    ensures r.Err? ==> r.error == ["endDate"]
  {
    if q.startDate.Some? && q.endDate.Some? && !(q.endDate.value >= q.startDate.value) then
      Err(["endDate"])
    else
      Ok(q)
  }

  /** The same day as start and end is an accepted range. */
  lemma SingleDayRangeIsValid(d: Instant)
    ensures ParseDateRange(DateRangeDto(Some(d), Some(d))).Ok?
  {
  }

  /**
   * The bounds a query actually uses: each given bound, or its default when absent, each
   * independently of the other; the end is then moved to the last millisecond of its day
   * (`setHours(23, 59, 59, 999)`), which depends on the local time zone and so is a parameter.
   * A range the schema accepted, with both days given, resolves to a period holding both days
   * whenever moving to the end of the day does not move backwards.
   */
  function ResolvePeriod(q: DateRangeDto, fallback: Period, endOfDay: Instant -> Instant): (p: Period)
    ensures q.startDate.Some? && q.endDate.Some? && ParseDateRange(q).Ok? && endOfDay(q.endDate.value) >= q.endDate.value
      ==> p.Contains(q.startDate.value) && p.Contains(q.endDate.value)
  {
    Period(q.startDate.GetOr(fallback.start), endOfDay(q.endDate.GetOr(fallback.end)))
  }

  /** Each bound defaults independently: the start never depends on the end's field or its default, nor the reverse. */
  lemma BoundsDefaultIndependently(q1: DateRangeDto, q2: DateRangeDto, f1: Period, f2: Period, endOfDay: Instant -> Instant)
    ensures q1.startDate == q2.startDate && (q1.startDate.Some? || f1.start == f2.start) ==>
      ResolvePeriod(q1, f1, endOfDay).start == ResolvePeriod(q2, f2, endOfDay).start
    ensures q1.endDate == q2.endDate && (q1.endDate.Some? || f1.end == f2.end) ==>
      ResolvePeriod(q1, f1, endOfDay).end == ResolvePeriod(q2, f2, endOfDay).end
  {
  }

  /** With both bounds given, the defaults play no part: any two fallbacks resolve to the same period. */
  lemma GivenBoundsIgnoreFallback(q: DateRangeDto, f1: Period, f2: Period, endOfDay: Instant -> Instant)
    requires q.startDate.Some? && q.endDate.Some?
    ensures ResolvePeriod(q, f1, endOfDay) == ResolvePeriod(q, f2, endOfDay)
  {
  }
}

=== FILE: domain.dfy ===
/**
 * The entities of the habit tracker and the in-memory store that stands for the
 * relational database: one sequence per table, records referring to habits by id.
 */
module Domain {
  import opened Wrappers
  import opened Seqs

  type Id = string

  /** Milliseconds since the epoch, as `Date.prototype.getTime()` yields. */
  type Instant = int

  /** `HabitGoalType`: a count of occurrences per day, or a number of minutes per day. */
  datatype GoalType = TimesPerDay | MinutesPerDay

  /** The enum's wire name. */
  function GoalTypeName(g: GoalType): string {
    match g
    case TimesPerDay => "TIMES_PER_DAY"
    case MinutesPerDay => "MINUTES_PER_DAY"
  }

  /** `z.nativeEnum(HabitGoalType)`: exactly one of the two wire names is accepted. */
  function ParseGoalType(s: string): (r: Option<GoalType>)
    ensures r.Some? ==> GoalTypeName(r.value) == s
    ensures r.None? ==> forall g: GoalType :: GoalTypeName(g) != s
  {
    if s == "TIMES_PER_DAY" then Some(TimesPerDay)
    else if s == "MINUTES_PER_DAY" then Some(MinutesPerDay)
    else None
  }

  lemma ParseGoalTypeRoundTrip(g: GoalType)
    ensures ParseGoalType(GoalTypeName(g)) == Some(g)
  {
  }

  datatype Habit = Habit(
    id: Id,
    userId: Id,
    name: string,
    daysOfWeek: seq<int>,
    goalType: GoalType,
    goalValue: int,
    reminderTimes: seq<string>,
    createdAt: Instant)

  /** One occurrence of a count habit. */
  datatype CheckIn = CheckIn(id: Id, habitId: Id, timestamp: Instant)

  /** One session of a duration habit, with its duration rounded to whole minutes. */
  datatype TimeEntry = TimeEntry(id: Id, habitId: Id, startTime: Instant, endTime: Instant, durationMinutes: int)

  datatype Store = Store(habits: seq<Habit>, checkIns: seq<CheckIn>, timeEntries: seq<TimeEntry>)

  /** A closed interval of instants: the `gte`/`lte` bounds of a query. */
  datatype Period = Period(start: Instant, end: Instant) {
    predicate Contains(t: Instant) {
      start <= t <= end
    }
  }

  /** Key selectors, defined once so that every query names the same function. */
  function HabitKey(h: Habit): Id { h.id }
  function CheckInKey(c: CheckIn): Id { c.id }
  function TimeEntryKey(t: TimeEntry): Id { t.id }

  function HabitWithId(id: Id): Habit -> bool { (h: Habit) => h.id == id }
  function CheckInWithId(id: Id): CheckIn -> bool { (c: CheckIn) => c.id == id }
  function TimeEntryWithId(id: Id): TimeEntry -> bool { (t: TimeEntry) => t.id == id }

  /** `findUnique({ where: { id } })` on the habit table. */
  function FindHabit(hs: seq<Habit>, id: Id): (r: Option<Habit>)
    ensures r.Some? ==> r.value in hs && r.value.id == id
    ensures r.None? <==> forall i :: 0 <= i < |hs| ==> hs[i].id != id
  {
    match FindIndex(hs, HabitWithId(id))
    case Some(i) => Some(hs[i])
    case None => None
  }

  /** The owner of the referenced habit, if it exists. */
  function OwnerOf(hs: seq<Habit>, habitId: Id): (r: Option<Id>)
    ensures r.Some? <==> FindHabit(hs, habitId).Some?
    ensures r.Some? ==> exists h :: h in hs && h.id == habitId && h.userId == r.value
  {
    match FindHabit(hs, habitId)
    case Some(h) => Some(h.userId)
    case None => None
  }

  /** Two records carry different keys. */
  function DistinctKeys<T>(key: T -> Id): (T, T) -> bool {
    (a: T, b: T) => key(a) != key(b)
  }

  /** No two records share an id (a primary key). */
  ghost predicate UniqueKeys<T>(s: seq<T>, key: T -> Id) {
    Pairwise(s, DistinctKeys(key))
  }

  /** A record whose key no record of `s` carries may be appended without breaking the key. */
  lemma AppendKeepsUniqueKeys<T>(s: seq<T>, key: T -> Id, x: T)
    requires UniqueKeys(s, key)
    requires forall k :: 0 <= k < |s| ==> key(s[k]) != key(x)
    ensures UniqueKeys(s + [x], key)
  {
    var r := s + [x];
    forall i, j | 0 <= i < j < |r|
      ensures DistinctKeys(key)(r[i], r[j])
    {
      assert r[i] == s[i];
    }
  }

  /** Dropping the first record keeps the keys unique. */
  lemma TailKeepsUniqueKeys<T>(s: seq<T>, key: T -> Id)
    requires |s| > 0 && UniqueKeys(s, key)
    ensures UniqueKeys(s[1..], key)
  {
    var rest := s[1..];
    forall i, j | 0 <= i < j < |rest|
      ensures DistinctKeys(key)(rest[i], rest[j])
    {
      assert rest[i] == s[i + 1] && rest[j] == s[j + 1];
    }
  }

  /** With unique keys, a lookup by key finds the one record that carries it. */
  lemma FindIndexOfUniqueKey<T>(s: seq<T>, key: T -> Id, p: T -> bool, k: nat)
    requires UniqueKeys(s, key)
    requires k < |s| && p(s[k])
    requires forall j :: 0 <= j < |s| && p(s[j]) ==> key(s[j]) == key(s[k])
    ensures FindIndex(s, p) == Some(k)
  {
    forall j | 0 <= j < |s| && j != k
      ensures !p(s[j])
    {
      if j < k {
        assert key(s[j]) != key(s[k]);
      } else {
        assert key(s[k]) != key(s[j]);
      }
    }
  }

  /** With unique ids, the habit found by id is the only one carrying it. */
  lemma FindHabitUnique(hs: seq<Habit>, h: Habit)
    requires UniqueKeys(hs, HabitKey)
    requires h in hs
    ensures FindHabit(hs, h.id) == Some(h)
  {
    var k :| 0 <= k < |hs| && hs[k] == h;
    FindIndexOfUniqueKey(hs, HabitKey, HabitWithId(h.id), k);
  }

  /** An event paired with the habit it references. */
  datatype Joined<E> = Joined(event: E, habit: Habit)

  /**
   * Each event of `es` paired with the habit `ref` names, in order; an event whose
   * habit is missing drops out, as an inner join through `include: { habit }` does.
   */
  function Join<E>(hs: seq<Habit>, es: seq<E>, ref: E -> Id): (r: seq<Joined<E>>)
    ensures |r| <= |es|
    ensures forall i :: 0 <= i < |r| ==> r[i].event in es && FindHabit(hs, ref(r[i].event)) == Some(r[i].habit)
    ensures forall i :: 0 <= i < |es| && FindHabit(hs, ref(es[i])).Some? ==>
      Joined(es[i], FindHabit(hs, ref(es[i])).value) in r
    decreases |es|
  {
    if |es| == 0 then []
    else
      var tail := Join(hs, es[1..], ref);
      assert forall i :: 0 <= i < |tail| ==> tail[i].event in es[1..];
      assert forall i :: 1 <= i < |es| ==> es[i] == es[1..][i - 1];
      match FindHabit(hs, ref(es[0]))
      case Some(h) => [Joined(es[0], h)] + tail
      case None => tail
  }

  function CheckInHabit(c: CheckIn): Id { c.habitId }
  function TimeEntryHabit(t: TimeEntry): Id { t.habitId }
  function CheckInTime(c: CheckIn): Instant { c.timestamp }
  function TimeEntryStart(t: TimeEntry): Instant { t.startTime }
  function JoinedCheckInTime(j: Joined<CheckIn>): Instant { j.event.timestamp }
  function JoinedEntryStart(j: Joined<TimeEntry>): Instant { j.event.startTime }

  /** Check-ins with their habits. */
  function CheckInsWithHabit(s: Store): seq<Joined<CheckIn>> {
    Join(s.habits, s.checkIns, CheckInHabit)
  }

  /** Time entries with their habits. */
  function TimeEntriesWithHabit(s: Store): seq<Joined<TimeEntry>> {
    Join(s.habits, s.timeEntries, TimeEntryHabit)
  }

  /**
   * The `where` of the event queries: `habit: { user_id }` is always applied; a `habit_id`
   * narrows further only when given and non-empty (JavaScript's truthiness of `query.habitId`);
   * the event's own instant (`at`) must lie in the period.
   */
  function Matching<E>(userId: Id, habitId: Option<Id>, p: Period, at: E -> Instant, ref: E -> Id): Joined<E> -> bool {
    (j: Joined<E>) =>
      && j.habit.userId == userId
      && (habitId.Some? && habitId.value != "" ==> ref(j.event) == habitId.value)
      && p.Contains(at(j.event))
  }

  /** A selected pair is an event of the table, joined to its habit, owned by the user and in the period. */
  lemma MatchingMember<E>(hs: seq<Habit>, es: seq<E>, userId: Id, habitId: Option<Id>, p: Period, at: E -> Instant, ref: E -> Id, j: Joined<E>)
    requires j in Filter(Join(hs, es, ref), Matching(userId, habitId, p, at, ref))
    ensures j.event in es && j.habit in hs && j.habit.id == ref(j.event)
    ensures FindHabit(hs, ref(j.event)) == Some(j.habit)
    ensures j.habit.userId == userId && p.Contains(at(j.event))
  {
    var js := Join(hs, es, ref);
    assert j in js && Matching(userId, habitId, p, at, ref)(j);
    var k :| 0 <= k < |js| && js[k] == j;
  }

  /** The user's check-ins in the period, each with its habit, optionally narrowed to one habit. */
  function CheckInsMatching(s: Store, userId: Id, habitId: Option<Id>, p: Period): seq<Joined<CheckIn>> {
    Filter(CheckInsWithHabit(s), Matching(userId, habitId, p, CheckInTime, CheckInHabit))
  }

  /** The user's time entries starting in the period, each with its habit, optionally narrowed to one habit. */
  function TimeEntriesMatching(s: Store, userId: Id, habitId: Option<Id>, p: Period): seq<Joined<TimeEntry>> {
    Filter(TimeEntriesWithHabit(s), Matching(userId, habitId, p, TimeEntryStart, TimeEntryHabit))
  }

  function JoinedEvent<E>(j: Joined<E>): E { j.event }

  /**
   * The same selection stated on the events alone, without the join: the event's habit
   * belongs to `userId` and its instant lies in the period.
   */
  function OwnedWithin<E>(hs: seq<Habit>, userId: Id, p: Period, at: E -> Instant, ref: E -> Id): E -> bool {
    (e: E) => OwnerOf(hs, ref(e)) == Some(userId) && p.Contains(at(e))
  }

  /** Joining, then filtering by owner and period, selects exactly the events the direct definition selects, in order. */
  lemma {:induction false} JoinedSelectionAgrees<E>(hs: seq<Habit>, es: seq<E>, userId: Id, p: Period, at: E -> Instant, ref: E -> Id)
    ensures Map(Filter(Join(hs, es, ref), Matching(userId, None, p, at, ref)), JoinedEvent)
         == Filter(es, OwnedWithin(hs, userId, p, at, ref))
    decreases |es|
  {
    if |es| > 0 {
      var m := Matching(userId, None, p, at, ref);
      var o := OwnedWithin(hs, userId, p, at, ref);
      var tail := Join(hs, es[1..], ref);
      JoinedSelectionAgrees(hs, es[1..], userId, p, at, ref);
      match FindHabit(hs, ref(es[0]))
      case Some(h) =>
        var j := Joined(es[0], h);
        assert Join(hs, es, ref) == [j] + tail;
        assert ([j] + tail)[1..] == tail;
        assert m(j) == o(es[0]);
        if m(j) {
          var f := Filter(tail, m);
          assert Filter([j] + tail, m) == [j] + f;
          assert ([j] + f)[1..] == f;
        }
      case None =>
        assert Join(hs, es, ref) == tail;
        assert !o(es[0]);
    }
  }
}

=== FILE: habits_service.dfy ===
/**
 * `HabitsService`: the habit lifecycle (create, list, read, update, delete), the two
 * logging operations gated by the goal type, and the per-habit and general history.
 * Every operation on an existing record first checks that the requester owns it;
 * a missing record and a record of another user both give `NotFound`.
 */
module HabitsService {
  import opened Wrappers
  import opened Seqs
  import opened Sorting
  import opened Domain
  import opened CreateHabitSchema
  import opened UpdateHabitSchema
  import opened DateRangeSchema
  import opened LogTimeSchema
  import opened ListHabitsSchema

  /** `NotFoundException` and `BadRequestException`. */
  datatype ServiceError = NotFound | BadRequest

  /** The store after the call, and what the call returned or threw. */
  datatype Reply<T> = Reply(store: Store, result: Result<T, ServiceError>)

  // ---------------------------------------------------------------- durations

  /**
   * `Math.round(ms / 1000 / 60)` on whole milliseconds: the nearest whole minute, a half
   * minute rounding up (`Math.round(x)` is `floor(x + 0.5)`), computed without floating point.
   */
  function RoundMinutes(ms: int): (m: int)
    ensures 60000 * m - 30000 <= ms < 60000 * m + 30000
  {
    (ms + 30000) / 60000
  }

  /** A session rounds to at least one minute exactly when it lasts at least thirty seconds. */
  lemma AtLeastOneMinute(ms: int)
    ensures RoundMinutes(ms) >= 1 <==> ms >= 30000
  {
  }

  lemma RoundingExamples()
    ensures RoundMinutes(30 * 60000) == 30   // 10:00 to 10:30
    ensures RoundMinutes(10000) == 0         // ten seconds: rejected
    ensures RoundMinutes(90000) == 2         // a minute and a half rounds up
    ensures RoundMinutes(30000) == 1 && RoundMinutes(29999) == 0
    ensures RoundMinutes(-30000) == 0        // a negative half minute rounds towards zero
  {
  }

  /** What every stored time entry satisfies: its duration is the rounded length, and at least one minute. */
  predicate ValidEntry(t: TimeEntry) {
    t.durationMinutes == RoundMinutes(t.endTime - t.startTime) && t.durationMinutes >= 1
  }

  // ---------------------------------------------------------------- the store invariant

  /**
   * Primary keys are unique, every event references an existing habit (the foreign keys),
   * and every time entry is valid.
   */
  ghost predicate WellFormed(s: Store) {
    && UniqueKeys(s.habits, HabitKey)
    && UniqueKeys(s.checkIns, CheckInKey)
    && UniqueKeys(s.timeEntries, TimeEntryKey)
    && (forall i :: 0 <= i < |s.checkIns| ==> FindHabit(s.habits, s.checkIns[i].habitId).Some?)
    && (forall i :: 0 <= i < |s.timeEntries| ==> FindHabit(s.habits, s.timeEntries[i].habitId).Some?)
    && (forall i :: 0 <= i < |s.timeEntries| ==> ValidEntry(s.timeEntries[i]))
  }

  // ---------------------------------------------------------------- create / findOne

  /** `create`: the habit gets the requester as owner, the body's fields, and `[]` when no reminder times were given. */
  function Create(s: Store, userId: Id, dto: CreateHabitDto, newId: Id, now: Instant): (r: Reply<Habit>)
    requires FindHabit(s.habits, newId).None?
    ensures r.result.Ok?
    ensures r.result.value.id == newId && r.result.value.userId == userId && r.result.value.createdAt == now
    ensures r.result.value.name == dto.name && r.result.value.daysOfWeek == dto.daysOfWeek
    ensures r.result.value.goalType == dto.goalType && r.result.value.goalValue == dto.goalValue
    ensures dto.reminderTimes.Some? ==> r.result.value.reminderTimes == dto.reminderTimes.value
    ensures dto.reminderTimes.None? ==> r.result.value.reminderTimes == []
    ensures r.store == s.(habits := s.habits + [r.result.value])
  {
    var h := Habit(newId, userId, dto.name, dto.daysOfWeek, dto.goalType, dto.goalValue,
                   dto.reminderTimes.GetOr([]), now);
    Reply(s.(habits := s.habits + [h]), Ok(h))
  }

  /** `findOne`: the habit with that id, only when the requester owns it. */
  function FindOne(s: Store, id: Id, userId: Id): (r: Result<Habit, ServiceError>)
    ensures r.Ok? ==> r.value in s.habits && r.value.id == id && r.value.userId == userId
    ensures r.Err? ==> r.error == NotFound
    ensures UniqueKeys(s.habits, HabitKey) ==>
      (r.Ok? <==> exists h :: h in s.habits && h.id == id && h.userId == userId)
  {
    FindOwnedHabit(s.habits, id, userId);
    match FindHabit(s.habits, id)
    case Some(h) => if h.userId == userId then Ok(h) else Err(NotFound)
    case None => Err(NotFound)
  }

  lemma FindOwnedHabit(hs: seq<Habit>, id: Id, userId: Id)
    ensures UniqueKeys(hs, HabitKey) ==> forall h :: h in hs && h.id == id ==> FindHabit(hs, id) == Some(h)
  {
    if UniqueKeys(hs, HabitKey) {
      forall h | h in hs && h.id == id
        ensures FindHabit(hs, id) == Some(h)
      {
        FindHabitUnique(hs, h);
      }
    }
  }

  /** A habit just created is found by its owner and by nobody else. */
  lemma CreateThenFindOne(s: Store, userId: Id, dto: CreateHabitDto, newId: Id, now: Instant, other: Id)
    requires FindHabit(s.habits, newId).None?
    requires other != userId
    ensures FindOne(Create(s, userId, dto, newId, now).store, newId, userId) == Create(s, userId, dto, newId, now).result
    ensures FindOne(Create(s, userId, dto, newId, now).store, newId, other) == Err(NotFound)
  {
    var r := Create(s, userId, dto, newId, now);
    var hs := r.store.habits;
    assert hs[|s.habits|] == r.result.value;
    FindIndexOfUniqueKeyAppended(s.habits, r.result.value);
  }

  /** Appending a habit with a fresh id makes it the one found by that id. */
  lemma FindIndexOfUniqueKeyAppended(hs: seq<Habit>, h: Habit)
    requires FindHabit(hs, h.id).None?
    ensures FindHabit(hs + [h], h.id) == Some(h)
  {
    var hs' := hs + [h];
    assert HabitWithId(h.id)(hs'[|hs|]);
    forall j | 0 <= j < |hs|
      ensures !HabitWithId(h.id)(hs'[j])
    {
      assert hs'[j] == hs[j];
    }
  }

  // ---------------------------------------------------------------- findAll

  /** ASCII lower case; the database's case-insensitive collation beyond ASCII is not modelled. */
  function Lower(c: char): char {
    if 'A' <= c <= 'Z' then (c as int + 32) as char else c
  }

  function Lowered(s: string): (r: string)
    ensures |r| == |s|
    ensures forall i :: 0 <= i < |s| ==> r[i] == Lower(s[i])
  {
    if |s| == 0 then [] else [Lower(s[0])] + Lowered(s[1..])
  }

  /** `pattern` occurs in `text` at position `i`, ignoring case. */
  predicate OccursAt(text: string, pattern: string, i: nat)
    requires i + |pattern| <= |text|
  {
    Lowered(text[i..i + |pattern|]) == Lowered(pattern)
  }

  /** `contains` with `mode: 'insensitive'`. */
  predicate ContainsIgnoringCase(text: string, pattern: string) {
    exists i: nat :: i + |pattern| <= |text| && OccursAt(text, pattern, i)
  }

  /** Every name contains the empty pattern; a pattern is found whatever the case of either side. */
  lemma ContainsIgnoringCaseExamples(text: string)
    ensures ContainsIgnoringCase(text, "")
    ensures ContainsIgnoringCase("Read a book", "READ")
    ensures ContainsIgnoringCase("Read a book", "A BOOK")
    ensures !ContainsIgnoringCase("Run", "running")
  {
    assert OccursAt(text, "", 0);
    assert OccursAt("Read a book", "READ", 0);
    assert OccursAt("Read a book", "A BOOK", 5);
  }

  /**
   * The `where` of `findAll`: the requester's habits, whose name contains `search` when a
   * non-empty one is given (an empty string is falsy, so it filters nothing), and whose goal
   * type is the requested one when given.
   */
  predicate Listed(h: Habit, userId: Id, search: Option<string>, goalType: Option<GoalType>) {
    && h.userId == userId
    && (search.Some? && search.value != "" ==> ContainsIgnoringCase(h.name, search.value))
    && (goalType.Some? ==> h.goalType == goalType.value)
  }

  function ListSelector(userId: Id, search: Option<string>, goalType: Option<GoalType>): Habit -> bool {
    (h: Habit) => Listed(h, userId, search, goalType)
  }

  function HabitCreatedAt(h: Habit): Instant { h.createdAt }

  /** `order` defaults to `'desc'`. */
  function ListDirection(order: Option<Order>): Direction {
    match order.GetOr(Desc)
    case Asc => Ascending
    case Desc => Descending
  }

  /** Every listed habit, ordered by creation time: what the pages are cut from. */
  function Listing(s: Store, userId: Id, q: ListHabitsDto): (r: seq<Habit>)
    ensures forall h :: h in r <==> h in s.habits && Listed(h, userId, q.search, q.goalType)
    ensures multiset(r) == multiset(Filter(s.habits, ListSelector(userId, q.search, q.goalType)))
    ensures SortedBy(r, HabitCreatedAt, ListDirection(q.order))
  {
    var sel := ListSelector(userId, q.search, q.goalType);
    SortedFilterMembership(s.habits, sel, HabitCreatedAt, ListDirection(q.order));
    assert forall h :: sel(h) <==> Listed(h, userId, q.search, q.goalType);
    SortBy(Filter(s.habits, sel), HabitCreatedAt, ListDirection(q.order))
  }

  /** `page` defaults to 1 and `perPage` to 10. */
  function PageNumber(q: ListHabitsDto): int { q.page.GetOr(1) }
  function PageSize(q: ListHabitsDto): int { q.perPage.GetOr(10) }

  /** `skip: (page - 1) * perPage`: the items on the pages before this one. */
  function Skip(q: ListHabitsDto): nat
    requires WithinBounds(q)
  {
    NonNegativeProduct(PageNumber(q) - 1, PageSize(q));
    (PageNumber(q) - 1) * PageSize(q)
  }

  lemma NonNegativeProduct(a: nat, b: nat)
    ensures a * b >= 0
  {
  }

  /** `Math.ceil(total / perPage)`: the fewest pages of `perPage` items that hold `total` items. */
  function CeilDiv(total: nat, perPage: int): (r: nat)
    requires perPage >= 1
    ensures perPage * r >= total
    ensures perPage * r < total + perPage
  {
    CeilDivBounds(total, perPage);
    (total + perPage - 1) / perPage
  }

  lemma CeilDivBounds(total: nat, perPage: int)
    requires perPage >= 1
    ensures (total + perPage - 1) / perPage >= 0
    ensures perPage * ((total + perPage - 1) / perPage) >= total
    ensures perPage * ((total + perPage - 1) / perPage) < total + perPage
  {
    var t := total + perPage - 1;
    var m := t % perPage;
    assert t == perPage * (t / perPage) + m;
    assert 0 <= m < perPage;
  }

  /** `skip` then `take`: at most `size` items of `all`, starting `skip` items in. */
  function PageSlice<T>(all: seq<T>, skip: nat, size: nat): (r: seq<T>)
    ensures |r| <= size
    ensures skip >= |all| ==> r == []
    ensures skip < |all| ==> |r| == (if |all| - skip < size then |all| - skip else size)
    ensures forall i :: 0 <= i < |r| ==> skip + i < |all| && r[i] == all[skip + i]
  {
    if skip >= |all| then []
    else if |all| - skip < size then all[skip..]
    else all[skip..skip + size]
  }

  datatype PageMeta = PageMeta(total: nat, page: int, perPage: int, lastPage: nat)
  datatype HabitPage = HabitPage(data: seq<Habit>, meta: PageMeta)

  /**
   * `findAll`: the page of the listing that starts `skip` items in, at most `perPage` long,
   * with the size of the whole listing and the number of its pages.
   */
  function FindAll(s: Store, userId: Id, q: ListHabitsDto): (r: HabitPage)
    requires WithinBounds(q)
    ensures r.meta.page == PageNumber(q) && r.meta.perPage == PageSize(q)
    ensures r.meta.total == |Listing(s, userId, q)|
    ensures r.meta.perPage * r.meta.lastPage >= r.meta.total
    ensures r.meta.perPage * r.meta.lastPage < r.meta.total + r.meta.perPage
    ensures |r.data| <= r.meta.perPage
    ensures Skip(q) >= r.meta.total ==> r.data == []
    ensures Skip(q) < r.meta.total ==>
      |r.data| == (if r.meta.total - Skip(q) < r.meta.perPage then r.meta.total - Skip(q) else r.meta.perPage)
    ensures forall i :: 0 <= i < |r.data| ==> Skip(q) + i < r.meta.total && r.data[i] == Listing(s, userId, q)[Skip(q) + i]
    ensures forall h :: h in r.data ==> h in s.habits && Listed(h, userId, q.search, q.goalType)
  {
    var all := Listing(s, userId, q);
    var data := PageSlice(all, Skip(q), PageSize(q));
    assert forall h :: h in data ==> h in all;
    HabitPage(data, PageMeta(|all|, PageNumber(q), PageSize(q), CeilDiv(|all|, PageSize(q))))
  }

  /** A page holds items exactly when its number is at most `lastPage`. */
  lemma PageHasDataIffWithinLastPage(s: Store, userId: Id, q: ListHabitsDto)
    requires WithinBounds(q)
    ensures FindAll(s, userId, q).data != [] <==> PageNumber(q) <= FindAll(s, userId, q).meta.lastPage
  {
    var m := FindAll(s, userId, q).meta;
    SkipBeforeLastPage(PageNumber(q) - 1, m.perPage, m.total, m.lastPage);
  }

  /** With `last` the ceiling of `total / d`, the first `k` pages hold fewer than `total` items exactly when `k < last`. */
  lemma SkipBeforeLastPage(k: nat, d: int, total: nat, last: nat)
    requires d >= 1
    requires d * last >= total && d * last < total + d
    ensures k * d < total <==> k < last
  {
    if k < last {
      ProductMonotone(k, last - 1, d);
      assert (last - 1) * d == d * last - d;
    } else {
      ProductMonotone(last, k, d);
    }
  }

  lemma ProductMonotone(a: int, b: int, d: nat)
    requires a <= b
    ensures a * d <= b * d
  {
    NonNegativeProduct(b - a, d);
    assert b * d - a * d == (b - a) * d;
  }

  /** Item `i` of the listing is item `i % perPage` of page `i / perPage + 1`: the pages cover the listing. */
  lemma PageLocatesItem(s: Store, userId: Id, q: ListHabitsDto, i: nat)
    requires WithinBounds(q)
    requires i < |Listing(s, userId, q)|
    ensures WithinBounds(q.(page := Some(i / PageSize(q) + 1)))
    ensures |FindAll(s, userId, q.(page := Some(i / PageSize(q) + 1))).data| > i % PageSize(q)
    ensures FindAll(s, userId, q.(page := Some(i / PageSize(q) + 1))).data[i % PageSize(q)] == Listing(s, userId, q)[i]
  {
    var d := PageSize(q);
    var q' := q.(page := Some(i / d + 1));
    DivisionSplits(i, d);
    assert Listing(s, userId, q') == Listing(s, userId, q);
    assert Skip(q') == (i / d) * d;
    SliceLocates(Listing(s, userId, q), d, i);
  }

  /** The slice starting at the page boundary before `i` holds item `i` at its offset within the page. */
  lemma SliceLocates<T>(all: seq<T>, d: int, i: nat)
    requires d >= 1 && i < |all|
    ensures (i / d) * d >= 0
    ensures |PageSlice(all, (i / d) * d, d)| > i % d
    ensures PageSlice(all, (i / d) * d, d)[i % d] == all[i]
  {
    DivisionSplits(i, d);
  }

  lemma DivisionSplits(i: nat, d: int)
    requires d >= 1
    ensures i / d >= 0 && 0 <= i % d < d
    ensures (i / d) * d + i % d == i
  {
  }

  /** Fifteen matching habits, page 2 of 10: five items, and two pages in all. */
  lemma FifteenHabitsExample(s: Store, userId: Id, q: ListHabitsDto)
    requires q.page == Some(2) && q.perPage == Some(10)
    requires |Listing(s, userId, q)| == 15
    ensures WithinBounds(q)
    ensures |FindAll(s, userId, q).data| == 5 && FindAll(s, userId, q).meta.lastPage == 2
  {
  }

  /** A validated query gives a non-negative `skip` and a `take` from 1 to 100. */
  lemma ValidatedQueryBounds(i: ListHabitsInput)
    requires ParseListHabits(i).Ok?
    ensures WithinBounds(ParseListHabits(i).value)
    ensures Skip(ParseListHabits(i).value) >= 0 && 1 <= PageSize(ParseListHabits(i).value) <= 100
  {
  }

  // ---------------------------------------------------------------- update / remove

  /** The `...dto` merge: a present field replaces the stored one; id, owner and creation time never change. */
  function ApplyUpdate(h: Habit, dto: UpdateHabitDto): (r: Habit)
    ensures r.id == h.id && r.userId == h.userId && r.createdAt == h.createdAt
    ensures r.name == dto.name.GetOr(h.name) && r.daysOfWeek == dto.daysOfWeek.GetOr(h.daysOfWeek)
    ensures r.goalType == dto.goalType.GetOr(h.goalType) && r.goalValue == dto.goalValue.GetOr(h.goalValue)
    ensures r.reminderTimes == dto.reminderTimes.GetOr(h.reminderTimes)
  {
    h.(name := dto.name.GetOr(h.name),
       daysOfWeek := dto.daysOfWeek.GetOr(h.daysOfWeek),
       goalType := dto.goalType.GetOr(h.goalType),
       goalValue := dto.goalValue.GetOr(h.goalValue),
       reminderTimes := dto.reminderTimes.GetOr(h.reminderTimes))
  }

  /** An empty update changes nothing, and applying the same update twice is applying it once. */
  lemma ApplyUpdateLaws(h: Habit, dto: UpdateHabitDto)
    ensures ApplyUpdate(h, UpdateHabitDto(None, None, None, None, None)) == h
    ensures ApplyUpdate(ApplyUpdate(h, dto), dto) == ApplyUpdate(h, dto)
  {
  }

  /** `update`: ownership check, then the merge replaces the habit in place; nothing else changes. */
  function Update(s: Store, id: Id, userId: Id, dto: UpdateHabitDto): (r: Reply<Habit>)
    ensures r.result.Ok? <==> FindOne(s, id, userId).Ok?
    ensures r.result.Err? ==> r.store == s && r.result.error == NotFound
    ensures r.result.Ok? ==> r.result.value == ApplyUpdate(FindOne(s, id, userId).value, dto)
    ensures r.result.Ok? ==> exists i :: (0 <= i < |s.habits| && s.habits[i] == FindOne(s, id, userId).value
      && r.store == s.(habits := s.habits[i := r.result.value]))
  {
    match FindIndex(s.habits, HabitWithId(id))
    case Some(i) =>
      if s.habits[i].userId == userId then
        var h := ApplyUpdate(s.habits[i], dto);
        Reply(s.(habits := s.habits[i := h]), Ok(h))
      else Reply(s, Err(NotFound))
    case None => Reply(s, Err(NotFound))
  }

  function NotOfHabit<E>(id: Id, ref: E -> Id): E -> bool {
    (e: E) => ref(e) != id
  }

  /**
   * `remove`: ownership check, then the habit is deleted. Its check-ins and time entries
   * go with it, by the database's cascading foreign key (assumed; the schema is not modelled).
   */
  function Remove(s: Store, id: Id, userId: Id): (r: Reply<Habit>)
    ensures r.result.Ok? <==> FindOne(s, id, userId).Ok?
    ensures r.result.Err? ==> r.store == s && r.result.error == NotFound
    ensures r.result.Ok? ==> r.result.value == FindOne(s, id, userId).value
    ensures r.result.Ok? ==> exists i :: (0 <= i < |s.habits| && s.habits[i] == r.result.value
      && r.store.habits == RemoveAt(s.habits, i))
    ensures r.result.Ok? ==> forall c :: c in r.store.checkIns <==> c in s.checkIns && c.habitId != id
    ensures r.result.Ok? ==> forall t :: t in r.store.timeEntries <==> t in s.timeEntries && t.habitId != id
    ensures r.result.Ok? ==> r.store.checkIns == Filter(s.checkIns, NotOfHabit(id, CheckInHabit))
    ensures r.result.Ok? ==> r.store.timeEntries == Filter(s.timeEntries, NotOfHabit(id, TimeEntryHabit))
  {
    match FindIndex(s.habits, HabitWithId(id))
    case Some(i) =>
      if s.habits[i].userId == userId then
        var checkIns := Filter(s.checkIns, NotOfHabit(id, CheckInHabit));
        var entries := Filter(s.timeEntries, NotOfHabit(id, TimeEntryHabit));
        FilterMembership(s.checkIns, NotOfHabit(id, CheckInHabit));
        FilterMembership(s.timeEntries, NotOfHabit(id, TimeEntryHabit));
        assert forall c :: NotOfHabit(id, CheckInHabit)(c) <==> c.habitId != id;
        assert forall t :: NotOfHabit(id, TimeEntryHabit)(t) <==> t.habitId != id;
        Reply(Store(RemoveAt(s.habits, i), checkIns, entries), Ok(s.habits[i]))
      else Reply(s, Err(NotFound))
    case None => Reply(s, Err(NotFound))
  }

  // ---------------------------------------------------------------- check-in / log time

  predicate FreshCheckInId(s: Store, id: Id) {
    forall k :: 0 <= k < |s.checkIns| ==> s.checkIns[k].id != id
  }

  predicate FreshTimeEntryId(s: Store, id: Id) {
    forall k :: 0 <= k < |s.timeEntries| ==> s.timeEntries[k].id != id
  }

  /**
   * `checkIn`: only a habit counted in times per day accepts a check-in; it is stamped with
   * the current instant, and exactly one record is added.
   */
  function AddCheckIn(s: Store, habitId: Id, userId: Id, newId: Id, now: Instant): (r: Reply<CheckIn>)
    requires FreshCheckInId(s, newId)
    ensures r.result.Ok? <==> FindOne(s, habitId, userId).Ok? && FindOne(s, habitId, userId).value.goalType == TimesPerDay
    ensures r.result.Err? ==> r.store == s
    ensures r.result.Err? ==> (r.result.error == NotFound <==> FindOne(s, habitId, userId).Err?)
    ensures r.result.Ok? ==> r.result.value == CheckIn(newId, habitId, now)
    ensures r.result.Ok? ==> r.store == s.(checkIns := s.checkIns + [r.result.value])
  {
    match FindOne(s, habitId, userId)
    case Err(e) => Reply(s, Err(e))
    case Ok(h) =>
      if h.goalType != TimesPerDay then Reply(s, Err(BadRequest))
      else
        var c := CheckIn(newId, habitId, now);
        Reply(s.(checkIns := s.checkIns + [c]), Ok(c))
  }

  /**
   * `logTime`: only a habit counted in minutes per day accepts a session; its duration is
   * rounded to whole minutes and a session under one minute is refused.
   */
  function LogTime(s: Store, habitId: Id, userId: Id, dto: LogTimeDto, newId: Id): (r: Reply<TimeEntry>)
    requires FreshTimeEntryId(s, newId)
    ensures r.result.Ok? <==>
      && FindOne(s, habitId, userId).Ok?
      && FindOne(s, habitId, userId).value.goalType == MinutesPerDay
      && dto.endTime - dto.startTime >= 30000
    ensures r.result.Err? ==> r.store == s
    ensures r.result.Err? ==> (r.result.error == NotFound <==> FindOne(s, habitId, userId).Err?)
    ensures r.result.Ok? ==>
      && r.result.value.id == newId && r.result.value.habitId == habitId
      && r.result.value.startTime == dto.startTime && r.result.value.endTime == dto.endTime
      && r.result.value.durationMinutes >= 1
      && 60000 * r.result.value.durationMinutes - 30000 <= dto.endTime - dto.startTime
      && dto.endTime - dto.startTime < 60000 * r.result.value.durationMinutes + 30000
    ensures r.result.Ok? ==> r.store == s.(timeEntries := s.timeEntries + [r.result.value])
  {
    match FindOne(s, habitId, userId)
    case Err(e) => Reply(s, Err(e))
    case Ok(h) =>
      if h.goalType != MinutesPerDay then Reply(s, Err(BadRequest))
      else
        var minutes := RoundMinutes(dto.endTime - dto.startTime);
        if minutes < 1 then Reply(s, Err(BadRequest))
        else
          var t := TimeEntry(newId, habitId, dto.startTime, dto.endTime, minutes);
          Reply(s.(timeEntries := s.timeEntries + [t]), Ok(t))
  }

  /**
   * The schema's strict order does not guarantee a minute: a body that passes it with a
   * session under thirty seconds is still refused by the service.
   */
  lemma ValidBodyMayStillBeRefused(s: Store, habitId: Id, userId: Id, i: LogTimeInput, newId: Id)
    requires FreshTimeEntryId(s, newId)
    requires ParseLogTime(i).Ok?
    requires i.endTime.value - i.startTime.value < 30000
    ensures LogTime(s, habitId, userId, ParseLogTime(i).value, newId).result.Err?
  {
  }

  /** Such a body exists: a one-millisecond session passes the schema and rounds to no minutes. */
  lemma OneMillisecondSessionExample()
    ensures ParseLogTime(LogTimeInput(Some(0), Some(1))).Ok? && RoundMinutes(1) == 0
  {
  }

  // ---------------------------------------------------------------- history

  /** What `getHistory` returns: the habit's goal type alone decides which table is read. */
  datatype History = CheckInHistory(checkIns: seq<CheckIn>) | TimeEntryHistory(entries: seq<TimeEntry>)

  function OfHabitWithin<E>(habitId: Id, p: Period, at: E -> Instant, ref: E -> Id): E -> bool {
    (e: E) => ref(e) == habitId && p.Contains(at(e))
  }

  /** The habit's check-ins in the period, newest first (`orderBy: { checkin_timestamp: 'desc' }`). */
  function CheckInsOfHabit(s: Store, habitId: Id, p: Period): (r: seq<CheckIn>)
    ensures forall c :: c in r <==> c in s.checkIns && c.habitId == habitId && p.Contains(c.timestamp)
    ensures multiset(r) == multiset(Filter(s.checkIns, OfHabitWithin(habitId, p, CheckInTime, CheckInHabit)))
    ensures SortedBy(r, CheckInTime, Descending)
  {
    var sel := OfHabitWithin(habitId, p, CheckInTime, CheckInHabit);
    SortedFilterMembership(s.checkIns, sel, CheckInTime, Descending);
    CheckInSelection(habitId, p);
    SortBy(Filter(s.checkIns, sel), CheckInTime, Descending)
  }

  /** The habit's time entries starting in the period, newest first (`orderBy: { start_time: 'desc' }`). */
  function TimeEntriesOfHabit(s: Store, habitId: Id, p: Period): (r: seq<TimeEntry>)
    ensures forall t :: t in r <==> t in s.timeEntries && t.habitId == habitId && p.Contains(t.startTime)
    ensures multiset(r) == multiset(Filter(s.timeEntries, OfHabitWithin(habitId, p, TimeEntryStart, TimeEntryHabit)))
    ensures SortedBy(r, TimeEntryStart, Descending)
  {
    var sel := OfHabitWithin(habitId, p, TimeEntryStart, TimeEntryHabit);
    SortedFilterMembership(s.timeEntries, sel, TimeEntryStart, Descending);
    TimeEntrySelection(habitId, p);
    SortBy(Filter(s.timeEntries, sel), TimeEntryStart, Descending)
  }

  /**
   * `getHistory`: after the ownership check, the habit's check-ins (times per day) or its
   * time entries (minutes per day) in the resolved period, newest first; never both.
   */
  function GetHistory(s: Store, habitId: Id, userId: Id, q: DateRangeDto, fallback: Period, endOfDay: Instant -> Instant)
    : (r: Result<History, ServiceError>)
    ensures r.Ok? <==> FindOne(s, habitId, userId).Ok?
    ensures r.Err? ==> r.error == NotFound
    ensures r.Ok? ==> (r.value.CheckInHistory? <==> FindOne(s, habitId, userId).value.goalType == TimesPerDay)
    ensures r.Ok? && r.value.CheckInHistory? ==>
      r.value.checkIns == CheckInsOfHabit(s, habitId, ResolvePeriod(q, fallback, endOfDay))
    ensures r.Ok? && r.value.TimeEntryHistory? ==>
      r.value.entries == TimeEntriesOfHabit(s, habitId, ResolvePeriod(q, fallback, endOfDay))
  {
    var p := ResolvePeriod(q, fallback, endOfDay);
    match FindOne(s, habitId, userId)
    case Err(e) => Err(e)
    case Ok(h) =>
      if h.goalType == TimesPerDay then Ok(CheckInHistory(CheckInsOfHabit(s, habitId, p)))
      else Ok(TimeEntryHistory(TimeEntriesOfHabit(s, habitId, p)))
  }

  lemma CheckInSelection(habitId: Id, p: Period)
    ensures forall c :: OfHabitWithin(habitId, p, CheckInTime, CheckInHabit)(c) <==> c.habitId == habitId && p.Contains(c.timestamp)
  {
    forall c
      ensures OfHabitWithin(habitId, p, CheckInTime, CheckInHabit)(c) <==> c.habitId == habitId && p.Contains(c.timestamp)
    {
      assert CheckInTime(c) == c.timestamp && CheckInHabit(c) == c.habitId;
    }
  }

  lemma TimeEntrySelection(habitId: Id, p: Period)
    ensures forall t :: OfHabitWithin(habitId, p, TimeEntryStart, TimeEntryHabit)(t) <==> t.habitId == habitId && p.Contains(t.startTime)
  {
    forall t
      ensures OfHabitWithin(habitId, p, TimeEntryStart, TimeEntryHabit)(t) <==> t.habitId == habitId && p.Contains(t.startTime)
    {
      assert TimeEntryStart(t) == t.startTime && TimeEntryHabit(t) == t.habitId;
    }
  }

  lemma SortedFilterMembership<T>(s: seq<T>, p: T -> bool, key: T -> int, dir: Direction)
    ensures forall x :: x in SortBy(Filter(s, p), key, dir) <==> x in s && p(x)
  {
    FilterMembership(s, p);
    PermutationMembership(SortBy(Filter(s, p), key, dir), Filter(s, p));
  }

  lemma FilterMembership<T>(s: seq<T>, p: T -> bool)
    ensures forall x :: x in Filter(s, p) <==> x in s && p(x)
  {
    forall x | x in s && p(x)
      ensures x in Filter(s, p)
    {
      var i :| 0 <= i < |s| && s[i] == x;
    }
  }

  lemma PermutationMembership<T>(a: seq<T>, b: seq<T>)
    requires multiset(a) == multiset(b)
    ensures forall x :: x in a <==> x in b
  {
    forall x
      ensures x in a <==> x in b
    {
      assert x in a <==> x in multiset(a);
      assert x in b <==> x in multiset(b);
    }
  }

  // ---------------------------------------------------------------- remove events

  /** `removeCheckIn`: the check-in must exist and its habit belong to the requester; then exactly it is deleted. */
  function RemoveCheckIn(s: Store, id: Id, userId: Id): (r: Reply<CheckIn>)
    ensures r.result.Err? ==> r.store == s && r.result.error == NotFound
    ensures UniqueKeys(s.checkIns, CheckInKey) ==>
      (r.result.Ok? <==> exists c :: c in s.checkIns && c.id == id && OwnerOf(s.habits, c.habitId) == Some(userId))
    ensures r.result.Ok? ==> r.result.value.id == id && OwnerOf(s.habits, r.result.value.habitId) == Some(userId)
    ensures r.result.Ok? ==> exists i :: (0 <= i < |s.checkIns| && s.checkIns[i] == r.result.value
      && r.store == s.(checkIns := RemoveAt(s.checkIns, i)))
  {
    UniqueCheckInLookup(s.checkIns, id);
    match FindIndex(s.checkIns, CheckInWithId(id))
    case Some(i) =>
      if OwnerOf(s.habits, s.checkIns[i].habitId) == Some(userId) then
        Reply(s.(checkIns := RemoveAt(s.checkIns, i)), Ok(s.checkIns[i]))
      else Reply(s, Err(NotFound))
    case None => Reply(s, Err(NotFound))
  }

  lemma UniqueCheckInLookup(cs: seq<CheckIn>, id: Id)
    ensures UniqueKeys(cs, CheckInKey) ==>
      forall k :: 0 <= k < |cs| && cs[k].id == id ==> FindIndex(cs, CheckInWithId(id)) == Some(k)
  {
    if UniqueKeys(cs, CheckInKey) {
      forall k | 0 <= k < |cs| && cs[k].id == id
        ensures FindIndex(cs, CheckInWithId(id)) == Some(k)
      {
        FindIndexOfUniqueKey(cs, CheckInKey, CheckInWithId(id), k);
      }
    }
  }

  /** `removeTimeEntry`: the entry must exist and its habit belong to the requester; then exactly it is deleted. */
  function RemoveTimeEntry(s: Store, id: Id, userId: Id): (r: Reply<TimeEntry>)
    ensures r.result.Err? ==> r.store == s && r.result.error == NotFound
    ensures UniqueKeys(s.timeEntries, TimeEntryKey) ==>
      (r.result.Ok? <==> exists t :: t in s.timeEntries && t.id == id && OwnerOf(s.habits, t.habitId) == Some(userId))
    ensures r.result.Ok? ==> r.result.value.id == id && OwnerOf(s.habits, r.result.value.habitId) == Some(userId)
    ensures r.result.Ok? ==> exists i :: (0 <= i < |s.timeEntries| && s.timeEntries[i] == r.result.value
      && r.store == s.(timeEntries := RemoveAt(s.timeEntries, i)))
  {
    UniqueTimeEntryLookup(s.timeEntries, id);
    match FindIndex(s.timeEntries, TimeEntryWithId(id))
    case Some(i) =>
      if OwnerOf(s.habits, s.timeEntries[i].habitId) == Some(userId) then
        Reply(s.(timeEntries := RemoveAt(s.timeEntries, i)), Ok(s.timeEntries[i]))
      else Reply(s, Err(NotFound))
    case None => Reply(s, Err(NotFound))
  }

  lemma UniqueTimeEntryLookup(ts: seq<TimeEntry>, id: Id)
    ensures UniqueKeys(ts, TimeEntryKey) ==>
      forall k :: 0 <= k < |ts| && ts[k].id == id ==> FindIndex(ts, TimeEntryWithId(id)) == Some(k)
  {
    if UniqueKeys(ts, TimeEntryKey) {
      forall k | 0 <= k < |ts| && ts[k].id == id
        ensures FindIndex(ts, TimeEntryWithId(id)) == Some(k)
      {
        FindIndexOfUniqueKey(ts, TimeEntryKey, TimeEntryWithId(id), k);
      }
    }
  }

  // ---------------------------------------------------------------- general history

  /** The `type` of a history item: `'check-in'` or `'time-entry'`. */
  datatype EventKind = CheckInKind | TimeEntryKind

  /** The habit as the history shows it: `select: { id, name, goal_type }`. */
  datatype HabitRef = HabitRef(id: Id, name: string, goalType: GoalType)

  datatype HistoryItem = HistoryItem(id: Id, kind: EventKind, date: Instant, habit: HabitRef, value: int)

  function RefOf(h: Habit): HabitRef { HabitRef(h.id, h.name, h.goalType) }

  /** A check-in counts once. */
  function CheckInItem(j: Joined<CheckIn>): HistoryItem {
    HistoryItem(j.event.id, CheckInKind, j.event.timestamp, RefOf(j.habit), 1)
  }

  /** A time entry counts its minutes and is dated by its start. */
  function TimeEntryItem(j: Joined<TimeEntry>): HistoryItem {
    HistoryItem(j.event.id, TimeEntryKind, j.event.startTime, RefOf(j.habit), j.event.durationMinutes)
  }

  function ItemDate(e: HistoryItem): Instant { e.date }
  function ItemValue(e: HistoryItem): int { e.value }

  /** Both projected streams, before the final sort. */
  function HistoryItems(s: Store, userId: Id, p: Period): seq<HistoryItem> {
    Map(CheckInsMatching(s, userId, None, p), CheckInItem) + Map(TimeEntriesMatching(s, userId, None, p), TimeEntryItem)
  }

  /**
   * `getGeneralHistory`: the requester's check-ins and time entries in the resolved period,
   * each fetched newest first, projected to history items, concatenated and sorted newest first.
   */
  function GetGeneralHistory(s: Store, userId: Id, q: DateRangeDto, fallback: Period, endOfDay: Instant -> Instant)
    : (r: seq<HistoryItem>)
    ensures multiset(r) == multiset(HistoryItems(s, userId, ResolvePeriod(q, fallback, endOfDay)))
    ensures |r| == |CheckInsMatching(s, userId, None, ResolvePeriod(q, fallback, endOfDay))|
                 + |TimeEntriesMatching(s, userId, None, ResolvePeriod(q, fallback, endOfDay))|
    ensures SortedBy(r, ItemDate, Descending)
    ensures forall i, j :: 0 <= i < j < |r| && r[i].date == r[j].date && r[j].kind == CheckInKind ==>
      r[i].kind == CheckInKind
  {
    var p := ResolvePeriod(q, fallback, endOfDay);
    var checkIns := CheckInsMatching(s, userId, None, p);
    var entries := TimeEntriesMatching(s, userId, None, p);
    var cs := SortBy(checkIns, JoinedCheckInTime, Descending);
    var ts := SortBy(entries, JoinedEntryStart, Descending);
    MapKeepsPermutation(cs, checkIns, CheckInItem);
    MapKeepsPermutation(ts, entries, TimeEntryItem);
    var merged := Map(cs, CheckInItem) + Map(ts, TimeEntryItem);
    CheckInsComeFirst(cs, ts);
    SortByIsStable(merged, ItemDate, Descending, KindRank);
    SortBy(merged, ItemDate, Descending)
  }

  /** Check-ins rank before time entries: the order in which the two streams are concatenated. */
  function KindRank(e: HistoryItem): int {
    if e.kind == CheckInKind then 0 else 1
  }

  /** The concatenated streams hold every check-in before every time entry. */
  lemma CheckInsComeFirst(cs: seq<Joined<CheckIn>>, ts: seq<Joined<TimeEntry>>)
    ensures SortedBy(Map(cs, CheckInItem) + Map(ts, TimeEntryItem), KindRank, Ascending)
  {
    var a, b := Map(cs, CheckInItem), Map(ts, TimeEntryItem);
    assert forall k :: 0 <= k < |a| ==> KindRank(a[k]) == 0;
    assert forall k :: 0 <= k < |b| ==> KindRank(b[k]) == 1;
    RankedHalvesAreSorted(a, b);
  }

  /** Items all ranked 0 followed by items all ranked 1 are in ascending rank order. */
  lemma RankedHalvesAreSorted(a: seq<HistoryItem>, b: seq<HistoryItem>)
    requires forall k :: 0 <= k < |a| ==> KindRank(a[k]) == 0
    requires forall k :: 0 <= k < |b| ==> KindRank(b[k]) == 1
    ensures SortedBy(a + b, KindRank, Ascending)
  {
    var m := a + b;
    forall i, j | 0 <= i < j < |m|
      ensures KindRank(m[i]) <= KindRank(m[j])
    {
      if j < |a| {
        assert m[i] == a[i] && m[j] == a[j];
      } else {
        assert m[j] == b[j - |a|];
      }
    }
  }

  /**
   * Every history item is one of the requester's events in the period, with its habit:
   * a check-in with value 1, or a time entry valued at its minutes and dated by its start.
   */
  lemma GeneralHistoryItems(s: Store, userId: Id, q: DateRangeDto, fallback: Period, endOfDay: Instant -> Instant, e: HistoryItem)
    requires e in GetGeneralHistory(s, userId, q, fallback, endOfDay)
    ensures ResolvePeriod(q, fallback, endOfDay).Contains(e.date)
    ensures exists h :: h in s.habits && h.userId == userId && e.habit == RefOf(h)
    ensures e.kind == CheckInKind ==> e.value == 1 && CheckIn(e.id, e.habit.id, e.date) in s.checkIns
    ensures e.kind == TimeEntryKind ==> exists t :: (t in s.timeEntries && t.id == e.id && t.habitId == e.habit.id
      && t.startTime == e.date && t.durationMinutes == e.value)
  {
    var p := ResolvePeriod(q, fallback, endOfDay);
    var cs := Map(CheckInsMatching(s, userId, None, p), CheckInItem);
    var ts := Map(TimeEntriesMatching(s, userId, None, p), TimeEntryItem);
    assert e in multiset(cs + ts);
    if e in cs {
      CheckInItemFacts(s, userId, p, e);
    } else {
      TimeEntryItemFacts(s, userId, p, e);
    }
  }

  lemma CheckInItemFacts(s: Store, userId: Id, p: Period, e: HistoryItem)
    requires e in Map(CheckInsMatching(s, userId, None, p), CheckInItem)
    ensures p.Contains(e.date) && e.kind == CheckInKind && e.value == 1
    ensures exists h :: h in s.habits && h.userId == userId && e.habit == RefOf(h)
    ensures CheckIn(e.id, e.habit.id, e.date) in s.checkIns
  {
    var js := CheckInsMatching(s, userId, None, p);
    var i :| 0 <= i < |js| && Map(js, CheckInItem)[i] == e;
    var j := js[i];
    MatchingMember(s.habits, s.checkIns, userId, None, p, CheckInTime, CheckInHabit, j);
    assert e == CheckInItem(j);
  }

  lemma TimeEntryItemFacts(s: Store, userId: Id, p: Period, e: HistoryItem)
    requires e in Map(TimeEntriesMatching(s, userId, None, p), TimeEntryItem)
    ensures p.Contains(e.date) && e.kind == TimeEntryKind
    ensures exists h :: h in s.habits && h.userId == userId && e.habit == RefOf(h)
    ensures exists t :: (t in s.timeEntries && t.id == e.id && t.habitId == e.habit.id
      && t.startTime == e.date && t.durationMinutes == e.value)
  {
    var js := TimeEntriesMatching(s, userId, None, p);
    var i :| 0 <= i < |js| && Map(js, TimeEntryItem)[i] == e;
    var j := js[i];
    MatchingMember(s.habits, s.timeEntries, userId, None, p, TimeEntryStart, TimeEntryHabit, j);
    assert e == TimeEntryItem(j);
  }
}

=== FILE: list_habits_dto.dfy ===
/**
 * `listHabitsSchema`: the optional query of the habit listing. Numbers are already
 * coerced from the query string; the coercion itself is not part of this model.
 */
module ListHabitsSchema {
  import opened Wrappers
  import opened Domain

  datatype Order = Asc | Desc

  datatype ListHabitsInput = ListHabitsInput(
    page: Option<int>,
    perPage: Option<int>,
    search: Option<string>,
    goalType: Option<string>,
    order: Option<string>)

  datatype ListHabitsDto = ListHabitsDto(
    page: Option<int>,
    perPage: Option<int>,
    search: Option<string>,
    goalType: Option<GoalType>,
    order: Option<Order>)

  /** `z.enum(['asc', 'desc'])`. */
  function ParseOrder(s: string): (r: Option<Order>)
    ensures r.Some? <==> s == "asc" || s == "desc"
    ensures r == Some(Asc) <==> s == "asc"
  {
    if s == "asc" then Some(Asc) else if s == "desc" then Some(Desc) else None
  }

  /** `page`: an integer of at least 1 when present. */
  predicate PageOk(p: Option<int>) {
    p.None? || p.value >= 1
  }

  /** `perPage`: an integer from 1 to 100 when present. */
  predicate PerPageOk(p: Option<int>) {
    p.None? || 1 <= p.value <= 100
  }

  /** What the listing needs of a validated query. */
  predicate WithinBounds(q: ListHabitsDto) {
    PageOk(q.page) && PerPageOk(q.perPage)
  }

  function ListIssues(i: ListHabitsInput): seq<string> {
    (if PageOk(i.page) then [] else ["page"])
    + (if PerPageOk(i.perPage) then [] else ["perPage"])
    + (if i.goalType.None? || ParseGoalType(i.goalType.value).Some? then [] else ["goal_type"])
    + (if i.order.None? || ParseOrder(i.order.value).Some? then [] else ["order"])
  }

  function ParseOptional<T>(s: Option<string>, parse: string -> Option<T>): Option<T> {
    match s
    case Some(v) => parse(v)
    case None => None
  }

  /** `listHabitsSchema.parse`. */
  function ParseListHabits(i: ListHabitsInput): (r: Result<ListHabitsDto, seq<string>>)
    ensures r.Ok? <==>
      && (i.page.Some? ==> i.page.value >= 1)
      && (i.perPage.Some? ==> 1 <= i.perPage.value <= 100)
      && (i.goalType.Some? ==> i.goalType.value == "TIMES_PER_DAY" || i.goalType.value == "MINUTES_PER_DAY")
      && (i.order.Some? ==> i.order.value == "asc" || i.order.value == "desc")
    ensures r.Ok? ==> WithinBounds(r.value)
    ensures r.Ok? ==>
      && r.value.page == i.page && r.value.perPage == i.perPage && r.value.search == i.search
      && (r.value.goalType.Some? <==> i.goalType.Some?)
      && (r.value.goalType.Some? ==> GoalTypeName(r.value.goalType.value) == i.goalType.value)
      && (r.value.order.Some? <==> i.order.Some?)
      && (r.value.order == Some(Asc) <==> i.order == Some("asc"))
      && (r.value.order == Some(Desc) <==> i.order == Some("desc"))
    ensures r.Err? ==> |r.error| >= 1
    ensures r.Err? ==> ("page" in r.error <==> !PageOk(i.page))
    ensures r.Err? ==> ("perPage" in r.error <==> !PerPageOk(i.perPage))
    ensures r.Err? ==> ("goal_type" in r.error <==>
      i.goalType.Some? && i.goalType.value != "TIMES_PER_DAY" && i.goalType.value != "MINUTES_PER_DAY")
    ensures r.Err? ==> ("order" in r.error <==> i.order.Some? && i.order.value != "asc" && i.order.value != "desc")
  {
    if ListIssues(i) == [] then
      Ok(ListHabitsDto(i.page, i.perPage, i.search, ParseOptional(i.goalType, ParseGoalType), ParseOptional(i.order, ParseOrder)))
    else
      Err(ListIssues(i))
  }
}

=== FILE: log_time_dto.dfy ===
/**
 * `logTimeSchema`: two required date-times, refined so that the session ends strictly after it starts.
 * Date-times are already turned into instants; a field that is missing is `None`.
 */
module LogTimeSchema {
  import opened Wrappers
  import opened Domain

  datatype LogTimeInput = LogTimeInput(startTime: Option<Instant>, endTime: Option<Instant>)

  datatype LogTimeDto = LogTimeDto(startTime: Instant, endTime: Instant)

  /**
   * `logTimeSchema.parse`. A missing field fails the object itself, so the refinement
   * only runs on a complete body; it reports its failure on the `end_time` path.
   */
  function ParseLogTime(i: LogTimeInput): (r: Result<LogTimeDto, seq<string>>)
    ensures r.Ok? <==> i.startTime.Some? && i.endTime.Some? && i.endTime.value > i.startTime.value
    ensures r.Ok? ==> r.value == LogTimeDto(i.startTime.value, i.endTime.value)
    ensures r.Err? ==> ("start_time" in r.error <==> i.startTime.None?)
    ensures r.Err? && i.startTime.Some? && i.endTime.Some? ==> r.error == ["end_time"]
    ensures r.Err? ==> ("end_time" in r.error <==>
      i.endTime.None? || (i.startTime.Some? && i.endTime.value <= i.startTime.value))
  {
    match (i.startTime, i.endTime)
    case (Some(s), Some(e)) =>
      if e > s then Ok(LogTimeDto(s, e)) else Err(["end_time"])
    case (None, None) => Err(["start_time", "end_time"])
    case (None, Some(_)) => Err(["start_time"])
    case (Some(_), None) => Err(["end_time"])
  }

  /** Equal instants are rejected: a session must last. */
  lemma EmptySessionIsRejected(t: Instant)
    ensures ParseLogTime(LogTimeInput(Some(t), Some(t))) == Err(["end_time"])
  {
  }
}

=== FILE: reports_service.dfy ===
/**
 * `ReportsService`: the dashboard's aggregates over a period and the heatmap's list of
 * event instants. Both only ever see the requester's habits and the events that reference them.
 */
module ReportsService {
  import opened Wrappers
  import opened Seqs
  import opened Sorting
  import opened Domain
  import opened DateRangeSchema
  import opened HabitsService

  // ---------------------------------------------------------------- dashboard

  datatype Overview = Overview(totalHabits: nat, checkIns: nat, minutes: int)

  /** The period actually used for filtering, and the aggregates. */
  datatype Dashboard = Dashboard(period: Period, overview: Overview)

  function OwnedBy(userId: Id): Habit -> bool {
    (h: Habit) => h.userId == userId
  }

  function JoinedMinutes(j: Joined<TimeEntry>): int { j.event.durationMinutes }
  function EntryMinutes(t: TimeEntry): int { t.durationMinutes }

  /**
   * `getDashboard`: how many habits the requester has (whatever the period), how many of their
   * check-ins fall in the resolved period, and the minutes of their time entries starting in it.
   */
  function GetDashboard(s: Store, userId: Id, q: DateRangeDto, fallback: Period, endOfDay: Instant -> Instant)
    : (r: Dashboard)
    ensures r.period == ResolvePeriod(q, fallback, endOfDay)
    ensures r.overview.totalHabits == |Filter(s.habits, OwnedBy(userId))|
    ensures r.overview.totalHabits <= |s.habits|
    ensures forall h :: h in s.habits && h.userId == userId ==> r.overview.totalHabits >= 1
    ensures r.overview.checkIns == |CheckInsMatching(s, userId, None, r.period)|
    ensures r.overview.minutes == SumBy(TimeEntriesMatching(s, userId, None, r.period), JoinedMinutes)
  {
    var p := ResolvePeriod(q, fallback, endOfDay);
    var owned := Filter(s.habits, OwnedBy(userId));
    assert forall i :: 0 <= i < |s.habits| && s.habits[i].userId == userId ==> s.habits[i] in owned;
    Dashboard(p, Overview(|owned|, |CheckInsMatching(s, userId, None, p)|,
                          SumBy(TimeEntriesMatching(s, userId, None, p), JoinedMinutes)))
  }

  /** With habit ids unique, the habit count is the number of distinct habits the requester owns. */
  lemma TotalHabitsCountsOwnedHabits(s: Store, userId: Id, q: DateRangeDto, fallback: Period, endOfDay: Instant -> Instant)
    requires UniqueKeys(s.habits, HabitKey)
    ensures GetDashboard(s, userId, q, fallback, endOfDay).overview.totalHabits
      == |set h | h in s.habits && h.userId == userId|
  {
    OwnedHabitCount(s.habits, userId);
    assert OwnedSet(s.habits, userId) == set h | h in s.habits && h.userId == userId;
  }

  /** Filtering a sequence of habits with unique ids counts each owned habit exactly once. */
  lemma {:induction false} OwnedHabitCount(hs: seq<Habit>, userId: Id)
    requires UniqueKeys(hs, HabitKey)
    ensures |Filter(hs, OwnedBy(userId))| == |OwnedSet(hs, userId)|
    decreases |hs|
  {
    if |hs| > 0 {
      var rest := hs[1..];
      TailKeepsUniqueKeys(hs, HabitKey);
      OwnedHabitCount(rest, userId);
      OwnedSetSplits(hs, userId);
      assert |Filter(hs, OwnedBy(userId))| == (if hs[0].userId == userId then 1 else 0) + |Filter(rest, OwnedBy(userId))|;
    }
  }

  /** The habits of `hs` the requester owns, as a set. */
  ghost function OwnedSet(hs: seq<Habit>, userId: Id): set<Habit> {
    set h | h in hs && h.userId == userId
  }

  /** The owned set of a non-empty sequence is that of its tail, plus its head when owned and not already there. */
  lemma OwnedSetSplits(hs: seq<Habit>, userId: Id)
    requires |hs| > 0 && UniqueKeys(hs, HabitKey)
    ensures |OwnedSet(hs, userId)| == (if hs[0].userId == userId then 1 else 0) + |OwnedSet(hs[1..], userId)|
  {
    var rest := hs[1..];
    forall k | 0 <= k < |rest|
      ensures rest[k] != hs[0]
    {
      assert DistinctKeys(HabitKey)(hs[0], hs[k + 1]);
    }
    assert forall h :: h in hs <==> h == hs[0] || h in rest by {
      assert hs == [hs[0]] + rest;
    }
    if hs[0].userId == userId {
      assert OwnedSet(hs, userId) == OwnedSet(rest, userId) + {hs[0]};
    } else {
      assert OwnedSet(hs, userId) == OwnedSet(rest, userId);
    }
  }

  /** The habit count is the same whatever period is asked for. */
  lemma TotalHabitsIgnoresPeriod(s: Store, userId: Id, q1: DateRangeDto, q2: DateRangeDto,
                                 f1: Period, f2: Period, e1: Instant -> Instant, e2: Instant -> Instant)
    ensures GetDashboard(s, userId, q1, f1, e1).overview.totalHabits == GetDashboard(s, userId, q2, f2, e2).overview.totalHabits
  {
  }

  /**
   * The counts agree with a definition on the tables alone: the check-ins, and the minutes of
   * the time entries, whose habit is owned by the requester and whose instant is in the period.
   */
  lemma DashboardCountsOwnedEvents(s: Store, userId: Id, q: DateRangeDto, fallback: Period, endOfDay: Instant -> Instant)
    ensures var p := ResolvePeriod(q, fallback, endOfDay);
      GetDashboard(s, userId, q, fallback, endOfDay).overview.checkIns
        == |Filter(s.checkIns, OwnedWithin(s.habits, userId, p, CheckInTime, CheckInHabit))|
    ensures var p := ResolvePeriod(q, fallback, endOfDay);
      GetDashboard(s, userId, q, fallback, endOfDay).overview.minutes
        == SumBy(Filter(s.timeEntries, OwnedWithin(s.habits, userId, p, TimeEntryStart, TimeEntryHabit)), EntryMinutes)
  {
    var p := ResolvePeriod(q, fallback, endOfDay);
    JoinedSelectionAgrees(s.habits, s.checkIns, userId, p, CheckInTime, CheckInHabit);
    JoinedSelectionAgrees(s.habits, s.timeEntries, userId, p, TimeEntryStart, TimeEntryHabit);
    var entries := TimeEntriesMatching(s, userId, None, p);
    SumByMap(entries, JoinedEvent, EntryMinutes, JoinedMinutes);
  }

  /** In a well-formed store every counted time entry lasts at least a minute, so the minutes are at least the entries. */
  lemma MinutesAtLeastEntries(s: Store, userId: Id, q: DateRangeDto, fallback: Period, endOfDay: Instant -> Instant)
    requires WellFormed(s)
    ensures var p := ResolvePeriod(q, fallback, endOfDay);
      GetDashboard(s, userId, q, fallback, endOfDay).overview.minutes >= |TimeEntriesMatching(s, userId, None, p)|
  {
    var p := ResolvePeriod(q, fallback, endOfDay);
    var entries := TimeEntriesMatching(s, userId, None, p);
    forall j | j in entries
      ensures JoinedMinutes(j) >= 1
    {
      MatchingMember(s.habits, s.timeEntries, userId, None, p, TimeEntryStart, TimeEntryHabit, j);
      var n :| 0 <= n < |s.timeEntries| && s.timeEntries[n] == j.event;
      assert ValidEntry(s.timeEntries[n]);
    }
    SumByAtLeastLength(entries, JoinedMinutes);
    assert GetDashboard(s, userId, q, fallback, endOfDay).overview.minutes == SumBy(entries, JoinedMinutes);
  }

  /** Three sessions of 30, 45 and 15 minutes, all of the requester's habits and in the period, add up to 90 minutes. */
  lemma DashboardMinutesExample(s: Store, userId: Id, q: DateRangeDto, fallback: Period, endOfDay: Instant -> Instant)
    requires |s.timeEntries| == 3
    requires s.timeEntries[0].durationMinutes == 30 && s.timeEntries[1].durationMinutes == 45
    requires s.timeEntries[2].durationMinutes == 15
    requires forall i :: 0 <= i < |s.timeEntries| ==>
      OwnedWithin(s.habits, userId, ResolvePeriod(q, fallback, endOfDay), TimeEntryStart, TimeEntryHabit)(s.timeEntries[i])
    ensures GetDashboard(s, userId, q, fallback, endOfDay).overview.minutes == 90
  {
    MinutesOfOwnedSessions(s, userId, q, fallback, endOfDay);
    SumOfThreeSessions(s.timeEntries);
  }

  /** When every session is of the requester's habits and in the period, the minutes are all the sessions' minutes. */
  lemma MinutesOfOwnedSessions(s: Store, userId: Id, q: DateRangeDto, fallback: Period, endOfDay: Instant -> Instant)
    requires forall i :: 0 <= i < |s.timeEntries| ==>
      OwnedWithin(s.habits, userId, ResolvePeriod(q, fallback, endOfDay), TimeEntryStart, TimeEntryHabit)(s.timeEntries[i])
    ensures GetDashboard(s, userId, q, fallback, endOfDay).overview.minutes == SumBy(s.timeEntries, EntryMinutes)
  {
    DashboardCountsOwnedEvents(s, userId, q, fallback, endOfDay);
    FilterKeepsAll(s.timeEntries, OwnedWithin(s.habits, userId, ResolvePeriod(q, fallback, endOfDay), TimeEntryStart, TimeEntryHabit));
  }

  lemma SumOfThreeSessions(ts: seq<TimeEntry>)
    requires |ts| == 3
    requires ts[0].durationMinutes == 30 && ts[1].durationMinutes == 45 && ts[2].durationMinutes == 15
    ensures SumBy(ts, EntryMinutes) == 90
  {
    var tail := ts[1..];
    assert tail[0] == ts[1] && tail[1..][0] == ts[2] && tail[1..][1..] == [];
    assert SumBy(tail[1..], EntryMinutes) == 15;
    assert SumBy(tail, EntryMinutes) == 60;
  }

  // ---------------------------------------------------------------- heatmap

  /** The heatmap's query: a date range and an optional habit. */
  datatype HeatmapQuery = HeatmapQuery(habitId: Option<Id>, range: DateRangeDto)

  /** The two streams of instants, before sorting: check-in times, then session starts. */
  function HeatmapDates(s: Store, userId: Id, habitId: Option<Id>, p: Period): seq<Instant> {
    Map(CheckInsMatching(s, userId, habitId, p), JoinedCheckInTime)
      + Map(TimeEntriesMatching(s, userId, habitId, p), JoinedEntryStart)
  }

  /**
   * `getHeatmap`: the instants of the requester's check-ins and session starts in the resolved
   * period, optionally of one habit, oldest first; one instant per event, without deduplication.
   */
  function GetHeatmap(s: Store, userId: Id, hq: HeatmapQuery, fallback: Period, endOfDay: Instant -> Instant)
    : (r: seq<Instant>)
    ensures multiset(r) == multiset(HeatmapDates(s, userId, hq.habitId, ResolvePeriod(hq.range, fallback, endOfDay)))
    ensures |r| == |CheckInsMatching(s, userId, hq.habitId, ResolvePeriod(hq.range, fallback, endOfDay))|
                 + |TimeEntriesMatching(s, userId, hq.habitId, ResolvePeriod(hq.range, fallback, endOfDay))|
    ensures SortedBy(r, Itself, Ascending)
  {
    SortBy(HeatmapDates(s, userId, hq.habitId, ResolvePeriod(hq.range, fallback, endOfDay)), Itself, Ascending)
  }

  /** Every instant on the heatmap is that of a check-in or a session of one of the requester's habits. */
  lemma HeatmapShowsOwnEventsOnly(s: Store, userId: Id, hq: HeatmapQuery, fallback: Period, endOfDay: Instant -> Instant, t: Instant)
    requires t in GetHeatmap(s, userId, hq, fallback, endOfDay)
    ensures ResolvePeriod(hq.range, fallback, endOfDay).Contains(t)
    ensures (exists c :: c in s.checkIns && c.timestamp == t && OwnerOf(s.habits, c.habitId) == Some(userId))
         || (exists e :: e in s.timeEntries && e.startTime == t && OwnerOf(s.habits, e.habitId) == Some(userId))
  {
    var p := ResolvePeriod(hq.range, fallback, endOfDay);
    var cs := Map(CheckInsMatching(s, userId, hq.habitId, p), JoinedCheckInTime);
    var ts := Map(TimeEntriesMatching(s, userId, hq.habitId, p), JoinedEntryStart);
    assert t in multiset(cs + ts);
    if t in cs {
      CheckInInstantIsOwned(s, userId, hq.habitId, p, t);
    } else {
      TimeEntryInstantIsOwned(s, userId, hq.habitId, p, t);
    }
  }

  lemma CheckInInstantIsOwned(s: Store, userId: Id, habitId: Option<Id>, p: Period, t: Instant)
    requires t in Map(CheckInsMatching(s, userId, habitId, p), JoinedCheckInTime)
    ensures p.Contains(t)
    ensures exists c :: c in s.checkIns && c.timestamp == t && OwnerOf(s.habits, c.habitId) == Some(userId)
  {
    var js := CheckInsMatching(s, userId, habitId, p);
    var i :| 0 <= i < |js| && Map(js, JoinedCheckInTime)[i] == t;
    var j := js[i];
    MatchingMember(s.habits, s.checkIns, userId, habitId, p, CheckInTime, CheckInHabit, j);
    assert j.event in s.checkIns && j.event.timestamp == t;
  }

  lemma TimeEntryInstantIsOwned(s: Store, userId: Id, habitId: Option<Id>, p: Period, t: Instant)
    requires t in Map(TimeEntriesMatching(s, userId, habitId, p), JoinedEntryStart)
    ensures p.Contains(t)
    ensures exists e :: e in s.timeEntries && e.startTime == t && OwnerOf(s.habits, e.habitId) == Some(userId)
  {
    var js := TimeEntriesMatching(s, userId, habitId, p);
    var i :| 0 <= i < |js| && Map(js, JoinedEntryStart)[i] == t;
    var j := js[i];
    MatchingMember(s.habits, s.timeEntries, userId, habitId, p, TimeEntryStart, TimeEntryHabit, j);
    assert j.event in s.timeEntries && j.event.startTime == t;
  }

  /** Naming a habit only narrows: its events are among the events of all the requester's habits. */
  lemma HabitFilterOnlyNarrows(s: Store, userId: Id, habitId: Id, p: Period)
    ensures multiset(CheckInsMatching(s, userId, Some(habitId), p)) <= multiset(CheckInsMatching(s, userId, None, p))
    ensures multiset(TimeEntriesMatching(s, userId, Some(habitId), p)) <= multiset(TimeEntriesMatching(s, userId, None, p))
    ensures |HeatmapDates(s, userId, Some(habitId), p)| <= |HeatmapDates(s, userId, None, p)|
  {
    FilterNarrows(CheckInsWithHabit(s), Matching(userId, None, p, CheckInTime, CheckInHabit),
                  Matching(userId, Some(habitId), p, CheckInTime, CheckInHabit));
    FilterNarrows(TimeEntriesWithHabit(s), Matching(userId, None, p, TimeEntryStart, TimeEntryHabit),
                  Matching(userId, Some(habitId), p, TimeEntryStart, TimeEntryHabit));
    SubMultisetIsShorter(CheckInsMatching(s, userId, Some(habitId), p), CheckInsMatching(s, userId, None, p));
    SubMultisetIsShorter(TimeEntriesMatching(s, userId, Some(habitId), p), TimeEntriesMatching(s, userId, None, p));
  }

  lemma SubMultisetIsShorter<T>(a: seq<T>, b: seq<T>)
    requires multiset(a) <= multiset(b)
    ensures |a| <= |b|
  {
    assert |multiset(a)| <= |multiset(b)| by {
      assert multiset(b) == multiset(a) + (multiset(b) - multiset(a));
    }
  }

  /** Asking for another user's habit yields an empty heatmap: the owner filter is never dropped. */
  lemma ForeignHabitGivesEmptyHeatmap(s: Store, userId: Id, h: Habit, range: DateRangeDto, fallback: Period, endOfDay: Instant -> Instant)
    requires UniqueKeys(s.habits, HabitKey)
    requires h in s.habits && h.userId != userId && h.id != ""
    ensures GetHeatmap(s, userId, HeatmapQuery(Some(h.id), range), fallback, endOfDay) == []
  {
    var p := ResolvePeriod(range, fallback, endOfDay);
    FindHabitUnique(s.habits, h);
    var cs := CheckInsWithHabit(s);
    var m := Matching(userId, Some(h.id), p, CheckInTime, CheckInHabit);
    forall i | 0 <= i < |cs|
      ensures !m(cs[i])
    {
      assert FindHabit(s.habits, cs[i].event.habitId) == Some(cs[i].habit);
    }
    FilterSelectsNone(cs, m);
    var ts := TimeEntriesWithHabit(s);
    var n := Matching(userId, Some(h.id), p, TimeEntryStart, TimeEntryHabit);
    forall i | 0 <= i < |ts|
      ensures !n(ts[i])
    {
      assert FindHabit(s.habits, ts[i].event.habitId) == Some(ts[i].habit);
    }
    FilterSelectsNone(ts, n);
  }
}

=== FILE: seqs.dfy ===
/** Generic sequence operations: the building blocks of every store query. */
module Seqs {
  import opened Wrappers

  /** The elements of `s` that satisfy `p`, in their original order (a `where` clause). */
  function Filter<T>(s: seq<T>, p: T -> bool): (r: seq<T>)
    ensures |r| <= |s|
    ensures forall i :: 0 <= i < |r| ==> r[i] in s && p(r[i])
    ensures forall i :: 0 <= i < |s| && p(s[i]) ==> s[i] in r
    ensures multiset(r) <= multiset(s)
    decreases |s|
  {
    if |s| == 0 then []
    else
      assert s == [s[0]] + s[1..];
      if p(s[0]) then [s[0]] + Filter(s[1..], p)
      else Filter(s[1..], p)
  }

  /** `f` applied to every element, order kept (JavaScript's `Array.prototype.map`). */
  function Map<T, U>(s: seq<T>, f: T -> U): (r: seq<U>)
    ensures |r| == |s|
    ensures forall i :: 0 <= i < |s| ==> r[i] == f(s[i])
    decreases |s|
  {
    if |s| == 0 then [] else [f(s[0])] + Map(s[1..], f)
  }

  /** The sum of `f` over the elements (a `reduce((acc, x) => acc + f(x), 0)`). */
  function SumBy<T>(s: seq<T>, f: T -> int): int
    decreases |s|
  {
    if |s| == 0 then 0 else f(s[0]) + SumBy(s[1..], f)
  }

  /** The index of the first element satisfying `p`, if any (a lookup by unique key). */
  function FindIndex<T>(s: seq<T>, p: T -> bool): (r: Option<nat>)
    ensures r.Some? ==> r.value < |s| && p(s[r.value])
    ensures r.Some? ==> forall j :: 0 <= j < r.value ==> !p(s[j])
    ensures r.None? <==> forall j :: 0 <= j < |s| ==> !p(s[j])
    decreases |s|
  {
    if |s| == 0 then None
    else if p(s[0]) then Some(0)
    else match FindIndex(s[1..], p)
      case None => None
      case Some(i) => Some(i + 1)
  }

  /** `s` without the element at position `i`. */
  function RemoveAt<T>(s: seq<T>, i: nat): (r: seq<T>)
    requires i < |s|
    ensures |r| == |s| - 1
    ensures forall j :: 0 <= j < i ==> r[j] == s[j]
    ensures forall j :: i <= j < |r| ==> r[j] == s[j + 1]
    ensures multiset(r) + multiset{s[i]} == multiset(s)
  {
    assert s == s[..i] + [s[i]] + s[i + 1..];
    s[..i] + s[i + 1..]
  }

  /** Every pair of elements, taken in order, is related by `rel`. */
  ghost predicate Pairwise<T>(s: seq<T>, rel: (T, T) -> bool) {
    forall i, j :: 0 <= i < j < |s| ==> rel(s[i], s[j])
  }

  /** Filtering keeps a sequence pairwise related (filtering keeps relative order). */
  lemma {:induction false} FilterKeepsPairwise<T>(s: seq<T>, p: T -> bool, rel: (T, T) -> bool)
    requires Pairwise(s, rel)
    ensures Pairwise(Filter(s, p), rel)
    decreases |s|
  {
    if |s| > 0 {
      FilterKeepsPairwise(s[1..], p, rel);
      var tail := Filter(s[1..], p);
      if p(s[0]) {
        var r := [s[0]] + tail;
        forall i, j | 0 <= i < j < |r|
          ensures rel(r[i], r[j])
        {
          if i == 0 {
            assert r[j] in tail;
            var k :| 0 <= k < |s[1..]| && s[1..][k] == r[j];
            assert s[k + 1] == r[j];
          } else {
            assert r[i] == tail[i - 1] && r[j] == tail[j - 1];
          }
        }
      }
    }
  }

  /** Removing one element keeps a sequence pairwise related. */
  lemma RemoveAtKeepsPairwise<T>(s: seq<T>, i: nat, rel: (T, T) -> bool)
    requires i < |s|
    requires Pairwise(s, rel)
    ensures Pairwise(RemoveAt(s, i), rel)
  {
    var r := RemoveAt(s, i);
    forall a, b | 0 <= a < b < |r|
      ensures rel(r[a], r[b])
    {
      var a' := if a < i then a else a + 1;
      var b' := if b < i then b else b + 1;
      assert r[a] == s[a'] && r[b] == s[b'];
    }
  }

  /** A filter by a stronger predicate selects a sub-multiset of a filter by a weaker one. */
  lemma {:induction false} FilterNarrows<T>(s: seq<T>, p: T -> bool, q: T -> bool)
    requires forall x :: x in s && q(x) ==> p(x)
    ensures multiset(Filter(s, q)) <= multiset(Filter(s, p))
    decreases |s|
  {
    if |s| > 0 {
      FilterNarrows(s[1..], p, q);
    }
  }

  lemma MapConcat<T, U>(a: seq<T>, b: seq<T>, f: T -> U)
    ensures Map(a + b, f) == Map(a, f) + Map(b, f)
  {
    var l, r := Map(a + b, f), Map(a, f) + Map(b, f);
    assert |l| == |r|;
    forall i | 0 <= i < |l|
      ensures l[i] == r[i]
    {
      if i < |a| {
        assert (a + b)[i] == a[i];
      } else {
        assert (a + b)[i] == b[i - |a|];
      }
    }
  }

  lemma {:induction false} SumByConcat<T>(a: seq<T>, b: seq<T>, f: T -> int)
    ensures SumBy(a + b, f) == SumBy(a, f) + SumBy(b, f)
    decreases |a|
  {
    if |a| == 0 {
      assert a + b == b;
    } else {
      assert (a + b)[1..] == a[1..] + b;
      SumByConcat(a[1..], b, f);
    }
  }

  /** Mapping a permutation gives a permutation of the mapped sequence. */
  lemma {:induction false} MapKeepsPermutation<T, U>(a: seq<T>, b: seq<T>, f: T -> U)
    requires multiset(a) == multiset(b)
    ensures multiset(Map(a, f)) == multiset(Map(b, f))
    decreases |a|
  {
    if |a| > 0 {
      var x := a[0];
      assert x in multiset(b);
      var i :| 0 <= i < |b| && b[i] == x;
      var l, r := b[..i], b[i + 1..];
      assert b == l + [x] + r;
      RemainderPermutation(a, l, x, r);
      MapKeepsPermutation(a[1..], l + r, f);
      MapAround(l, x, r, f);
      PermutationStep(Map(a, f), Map(a[1..], f), Map(b, f), Map(l, f), Map(r, f), Map(l + r, f), f(x));
    }
  }

  /** Taking an element out of the middle of a sequence takes it out of its multiset. */
  lemma MultisetAround<T>(l: seq<T>, x: T, r: seq<T>)
    ensures multiset(l + [x] + r) == multiset(l + r) + multiset{x}
  {
  }

  /** Taking the head of one permutation out of the middle of the other leaves permutations. */
  lemma RemainderPermutation<T>(a: seq<T>, l: seq<T>, x: T, r: seq<T>)
    requires |a| > 0 && a[0] == x
    requires multiset(a) == multiset(l + [x] + r)
    ensures multiset(a[1..]) == multiset(l + r)
  {
    assert a == [x] + a[1..];
    assert multiset(a) == multiset{x} + multiset(a[1..]);
    MultisetAround(l, x, r);
    assert multiset(a[1..]) == multiset(a) - multiset{x};
  }

  /** Putting the same element in front of one permutation and in the middle of another keeps them permutations. */
  lemma PermutationStep<T>(a: seq<T>, tail: seq<T>, b: seq<T>, l: seq<T>, r: seq<T>, rest: seq<T>, x: T)
    requires a == [x] + tail && b == l + [x] + r && rest == l + r
    requires multiset(tail) == multiset(rest)
    ensures multiset(a) == multiset(b)
  {
    MultisetAround(l, x, r);
  }

  /** Mapping a sequence with `x` in the middle gives `f(x)` between the mappings of either side. */
  lemma MapAround<T, U>(l: seq<T>, x: T, r: seq<T>, f: T -> U)
    ensures Map(l + [x] + r, f) == Map(l, f) + [f(x)] + Map(r, f)
    ensures Map(l + r, f) == Map(l, f) + Map(r, f)
  {
    MapConcat(l + [x], r, f);
    MapConcat(l, [x], f);
    MapConcat(l, r, f);
    assert Map([x], f) == [f(x)];
  }

  /** A sum does not depend on the order of its terms. */
  lemma {:induction false} SumByKeepsPermutation<T>(a: seq<T>, b: seq<T>, f: T -> int)
    requires multiset(a) == multiset(b)
    ensures SumBy(a, f) == SumBy(b, f)
    decreases |a|
  {
    if |a| == 0 {
      assert |b| == |multiset(b)| == 0;
    } else {
      var x := a[0];
      assert x in multiset(b);
      var i :| 0 <= i < |b| && b[i] == x;
      var l, r := b[..i], b[i + 1..];
      assert b == l + [x] + r;
      RemainderPermutation(a, l, x, r);
      SumByKeepsPermutation(a[1..], l + r, f);
      SumByAround(l, x, r, f);
      assert SumBy(a, f) == f(x) + SumBy(a[1..], f);
    }
  }

  /** A term in the middle of a sum may be taken out of it. */
  lemma SumByAround<T>(l: seq<T>, x: T, r: seq<T>, f: T -> int)
    ensures SumBy(l + [x] + r, f) == f(x) + SumBy(l + r, f)
  {
    SumByConcat(l + [x], r, f);
    SumByConcat(l, [x], f);
    SumByConcat(l, r, f);
    assert SumBy([x], f) == f(x);
  }

  /** When every term is at least one, the sum is at least the number of terms. */
  lemma {:induction false} SumByAtLeastLength<T>(s: seq<T>, f: T -> int)
    requires forall x :: x in s ==> f(x) >= 1
    ensures SumBy(s, f) >= |s|
    decreases |s|
  {
    if |s| > 0 {
      assert s[0] in s;
      SumByAtLeastLength(s[1..], f);
    }
  }

  /** When every term is `c`, the sum is `c` times the number of terms. */
  lemma {:induction false} SumByConstant<T>(s: seq<T>, f: T -> int, c: int)
    requires forall x :: x in s ==> f(x) == c
    ensures SumBy(s, f) == c * |s|
    decreases |s|
  {
    if |s| > 0 {
      assert s[0] in s;
      SumByConstant(s[1..], f, c);
    }
  }

  /** Mapping twice is mapping once by the composition. */
  lemma MapCompose<T, U, V>(s: seq<T>, f: T -> U, g: U -> V, h: T -> V)
    requires forall i :: 0 <= i < |s| ==> h(s[i]) == g(f(s[i]))
    ensures Map(Map(s, f), g) == Map(s, h)
  {
  }

  /** Summing over a mapped sequence is summing the composition over the original. */
  lemma {:induction false} SumByMap<T, U>(s: seq<T>, f: T -> U, g: U -> int, h: T -> int)
    requires forall i :: 0 <= i < |s| ==> h(s[i]) == g(f(s[i]))
    ensures SumBy(Map(s, f), g) == SumBy(s, h)
    decreases |s|
  {
    if |s| > 0 {
      assert Map(s, f)[1..] == Map(s[1..], f);
      SumByMap(s[1..], f, g, h);
    }
  }

  /** A filter that every element passes keeps the sequence as it is. */
  lemma {:induction false} FilterKeepsAll<T>(s: seq<T>, p: T -> bool)
    requires forall i :: 0 <= i < |s| ==> p(s[i])
    ensures Filter(s, p) == s
    decreases |s|
  {
    if |s| > 0 {
      FilterKeepsAll(s[1..], p);
    }
  }

  /** A filter that no element passes selects nothing. */
  lemma {:induction false} FilterSelectsNone<T>(s: seq<T>, p: T -> bool)
    requires forall i :: 0 <= i < |s| ==> !p(s[i])
    ensures Filter(s, p) == []
    decreases |s|
  {
    if |s| > 0 {
      FilterSelectsNone(s[1..], p);
    }
  }
}

=== FILE: sorting.dfy ===
/**
 * Sorting by an integer key (an instant), as JavaScript's stable `Array.prototype.sort`
 * with a comparator `(a, b) => key(a) - key(b)` or the reverse, and as an `orderBy` clause.
 */
module Sorting {

  datatype Direction = Ascending | Descending

  /** `a` may precede `b` in the given direction. */
  predicate InOrder(a: int, b: int, dir: Direction) {
    match dir
    case Ascending => a <= b
    case Descending => a >= b
  }

  ghost predicate SortedBy<T>(s: seq<T>, key: T -> int, dir: Direction) {
    forall i, j :: 0 <= i < j < |s| ==> InOrder(key(s[i]), key(s[j]), dir)
  }

  /**
   * Places `x` in front of the first element it may precede; before equal keys,
   * so that an insertion sort built on it is stable.
   */
  function Insert<T>(x: T, s: seq<T>, key: T -> int, dir: Direction): (r: seq<T>)
    requires SortedBy(s, key, dir)
    ensures multiset(r) == multiset(s) + multiset{x}
    ensures SortedBy(r, key, dir)
    decreases |s|
  {
    if |s| == 0 then [x]
    else if InOrder(key(x), key(s[0]), dir) then
      assert forall j :: 0 <= j < |s| ==> InOrder(key(x), key(s[j]), dir);
      [x] + s
    else
      var tail := Insert(x, s[1..], key, dir);
      assert s == [s[0]] + s[1..];
      HeadPrecedesInsertion(x, s, tail, key, dir);
      [s[0]] + tail
  }

  /** The head of a sorted `s` may precede everything `x` was inserted among, when it may precede `x`. */
  lemma HeadPrecedesInsertion<T>(x: T, s: seq<T>, tail: seq<T>, key: T -> int, dir: Direction)
    requires |s| > 0 && SortedBy(s, key, dir) && SortedBy(tail, key, dir)
    requires !InOrder(key(x), key(s[0]), dir)
    requires multiset(tail) == multiset(s[1..]) + multiset{x}
    ensures SortedBy([s[0]] + tail, key, dir)
  {
    var r := [s[0]] + tail;
    forall i, j | 0 <= i < j < |r|
      ensures InOrder(key(r[i]), key(r[j]), dir)
    {
      if i == 0 {
        assert r[j] == tail[j - 1];
        assert r[j] in multiset(tail);
        if r[j] != x {
          assert r[j] in multiset(s[1..]);
          var k :| 0 <= k < |s[1..]| && s[1..][k] == r[j];
          assert s[k + 1] == r[j];
        }
      } else {
        assert r[i] == tail[i - 1] && r[j] == tail[j - 1];
      }
    }
  }

  /** A permutation of `s` ordered by `key` in direction `dir`; `SortByIsStable` shows it is stable. */
  function SortBy<T>(s: seq<T>, key: T -> int, dir: Direction): (r: seq<T>)
    ensures multiset(r) == multiset(s)
    ensures |r| == |s|
    ensures SortedBy(r, key, dir)
    decreases |s|
  {
    if |s| == 0 then []
    else
      assert s == [s[0]] + s[1..];
      Insert(s[0], SortBy(s[1..], key, dir), key, dir)
  }

  /**
   * Among elements with equal keys, `rank` never decreases. A stable sort of an input already
   * ordered by `rank` keeps this: elements it cannot tell apart by key stay in their input order.
   */
  ghost predicate StableBy<T>(s: seq<T>, key: T -> int, rank: T -> int) {
    forall i, j :: 0 <= i < j < |s| && key(s[i]) == key(s[j]) ==> rank(s[i]) <= rank(s[j])
  }

  /** Inserting an element ranked no higher than any other keeps equal keys in rank order. */
  lemma {:induction false} InsertIsStable<T>(x: T, s: seq<T>, key: T -> int, dir: Direction, rank: T -> int)
    requires SortedBy(s, key, dir) && StableBy(s, key, rank)
    requires forall y :: y in s ==> rank(x) <= rank(y)
    ensures StableBy(Insert(x, s, key, dir), key, rank)
    decreases |s|
  {
    if |s| == 0 {
    } else if InOrder(key(x), key(s[0]), dir) {
      PrependKeepsStable(x, s, key, rank);
    } else {
      var rest := s[1..];
      assert s == [s[0]] + rest;
      assert StableBy(rest, key, rank) by {
        forall i, j | 0 <= i < j < |rest| && key(rest[i]) == key(rest[j])
          ensures rank(rest[i]) <= rank(rest[j])
        {
          assert rest[i] == s[i + 1] && rest[j] == s[j + 1];
        }
      }
      InsertIsStable(x, rest, key, dir, rank);
      var tail := Insert(x, rest, key, dir);
      forall y | y in tail && key(s[0]) == key(y)
        ensures rank(s[0]) <= rank(y)
      {
        assert y in multiset(tail);
        if y != x {
          var k :| 0 <= k < |rest| && rest[k] == y;
          assert s[k + 1] == y;
        }
      }
      PrependKeepsStable(s[0], tail, key, rank);
    }
  }

  /** An element ranked no higher than every later element of its key may be put in front. */
  lemma PrependKeepsStable<T>(a: T, t: seq<T>, key: T -> int, rank: T -> int)
    requires StableBy(t, key, rank)
    requires forall y :: y in t && key(a) == key(y) ==> rank(a) <= rank(y)
    ensures StableBy([a] + t, key, rank)
  {
    var r := [a] + t;
    forall i, j | 0 <= i < j < |r| && key(r[i]) == key(r[j])
      ensures rank(r[i]) <= rank(r[j])
    {
      assert r[j] == t[j - 1];
      if i > 0 {
        assert r[i] == t[i - 1];
      }
    }
  }

  /** `SortBy` is stable: elements of equal key keep the order of an input ordered by `rank`. */
  lemma {:induction false} SortByIsStable<T>(s: seq<T>, key: T -> int, dir: Direction, rank: T -> int)
    requires SortedBy(s, rank, Ascending)
    ensures StableBy(SortBy(s, key, dir), key, rank)
    decreases |s|
  {
    if |s| > 0 {
      var rest := s[1..];
      assert SortedBy(rest, rank, Ascending) by {
        forall i, j | 0 <= i < j < |rest|
          ensures rank(rest[i]) <= rank(rest[j])
        {
          assert rest[i] == s[i + 1] && rest[j] == s[j + 1];
        }
      }
      SortByIsStable(rest, key, dir, rank);
      var sorted := SortBy(rest, key, dir);
      forall y | y in sorted
        ensures rank(s[0]) <= rank(y)
      {
        assert y in multiset(rest);
        var k :| 0 <= k < |rest| && rest[k] == y;
        assert s[k + 1] == y;
      }
      InsertIsStable(s[0], sorted, key, dir, rank);
    }
  }

  /** The reverse of `s`. */
  function Reverse<T>(s: seq<T>): (r: seq<T>)
    ensures |r| == |s|
    ensures forall i :: 0 <= i < |s| ==> r[i] == s[|s| - 1 - i]
    decreases |s|
  {
    if |s| == 0 then [] else Reverse(s[1..]) + [s[0]]
  }

  lemma {:induction false} ReverseKeepsMultiset<T>(s: seq<T>)
    ensures multiset(Reverse(s)) == multiset(s)
    decreases |s|
  {
    if |s| > 0 {
      ReverseKeepsMultiset(s[1..]);
      assert s == [s[0]] + s[1..];
    }
  }

  /** An integer as its own sort key. */
  function Itself(x: int): int { x }

  /** Reversing an ascending sequence gives a descending one. */
  lemma ReverseOfAscendingIsDescending(s: seq<int>)
    requires SortedBy(s, Itself, Ascending)
    ensures SortedBy(Reverse(s), Itself, Descending)
  {
    var r := Reverse(s);
    forall i, j | 0 <= i < j < |r|
      ensures r[i] >= r[j]
    {
      assert r[i] == s[|s| - 1 - i] && r[j] == s[|s| - 1 - j];
    }
  }

  /** Two sequences of integers sorted the same way and holding the same values are equal. */
  lemma {:induction false} SortedPermutationsAreEqual(a: seq<int>, b: seq<int>, dir: Direction)
    requires multiset(a) == multiset(b)
    requires SortedBy(a, Itself, dir)
    requires SortedBy(b, Itself, dir)
    ensures a == b
    decreases |a|
  {
    assert |a| == |multiset(a)| == |multiset(b)| == |b|;
    if |a| > 0 {
      SortedHeadsAgree(a, b, dir);
      var a', b' := a[1..], b[1..];
      assert a == [a[0]] + a';
      assert b == [b[0]] + b';
      assert multiset(a') == multiset(a) - multiset{a[0]};
      assert multiset(b') == multiset(b) - multiset{b[0]};
      TailKeepsSorted(a, Itself, dir);
      TailKeepsSorted(b, Itself, dir);
      SortedPermutationsAreEqual(a', b', dir);
    }
  }

  /** Dropping the first element keeps a sequence sorted. */
  lemma TailKeepsSorted<T>(s: seq<T>, key: T -> int, dir: Direction)
    requires |s| > 0 && SortedBy(s, key, dir)
    ensures SortedBy(s[1..], key, dir)
  {
    var t := s[1..];
    forall i, j | 0 <= i < j < |t|
      ensures InOrder(key(t[i]), key(t[j]), dir)
    {
      assert t[i] == s[i + 1] && t[j] == s[j + 1];
    }
  }

  /** The first element of a sorted sequence is the extreme value of its multiset, so it is shared. */
  lemma SortedHeadsAgree(a: seq<int>, b: seq<int>, dir: Direction)
    requires |a| > 0 && |b| > 0
    requires multiset(a) == multiset(b)
    requires SortedBy(a, Itself, dir)
    requires SortedBy(b, Itself, dir)
    ensures a[0] == b[0]
  {
    assert a[0] in multiset(b);
    assert b[0] in multiset(a);
    var i :| 0 <= i < |b| && b[i] == a[0];
    var j :| 0 <= j < |a| && a[j] == b[0];
    if i > 0 {
      assert InOrder(b[0], b[i], dir);
    }
    if j > 0 {
      assert InOrder(a[0], a[j], dir);
    }
  }
}

=== FILE: store_invariant.dfy ===
/**
 * The store invariant `WellFormed` (unique primary keys, foreign keys that resolve, valid
 * time entries) holds after every operation that writes, whenever it held before.
 */
module StoreInvariant {
  import opened Wrappers
  import opened Seqs
  import opened Domain
  import opened CreateHabitSchema
  import opened UpdateHabitSchema
  import opened LogTimeSchema
  import opened HabitsService

  // ---------------------------------------------------------------- lookups under edits of the habit table

  /** A habit found by id is still found once another habit is appended. */
  lemma FindHabitAfterAppend(hs: seq<Habit>, h: Habit, id: Id)
    requires FindHabit(hs, id).Some?
    ensures FindHabit(hs + [h], id).Some?
  {
    var i :| 0 <= i < |hs| && hs[i].id == id;
    assert (hs + [h])[i] == hs[i];
  }

  /** A habit found by id is still found once a habit with another id is removed. */
  lemma FindHabitAfterRemoveAt(hs: seq<Habit>, i: nat, id: Id)
    requires i < |hs| && hs[i].id != id
    requires FindHabit(hs, id).Some?
    ensures FindHabit(RemoveAt(hs, i), id).Some?
  {
    var j :| 0 <= j < |hs| && hs[j].id == id;
    var r := RemoveAt(hs, i);
    if j < i {
      assert r[j] == hs[j];
    } else {
      assert r[j - 1] == hs[j];
    }
  }

  /** Replacing a habit by one with the same id changes no lookup's success and keeps ids unique. */
  lemma ReplaceKeepsIds(hs: seq<Habit>, i: nat, h: Habit)
    requires i < |hs| && h.id == hs[i].id
    ensures forall id :: FindHabit(hs, id).Some? ==> FindHabit(hs[i := h], id).Some?
    ensures UniqueKeys(hs, HabitKey) ==> UniqueKeys(hs[i := h], HabitKey)
  {
    var r := hs[i := h];
    forall id | FindHabit(hs, id).Some?
      ensures FindHabit(r, id).Some?
    {
      var j :| 0 <= j < |hs| && hs[j].id == id;
      assert r[j].id == id;
    }
    if UniqueKeys(hs, HabitKey) {
      forall a, b | 0 <= a < b < |r|
        ensures DistinctKeys(HabitKey)(r[a], r[b])
      {
        assert DistinctKeys(HabitKey)(hs[a], hs[b]);
        assert HabitKey(r[a]) == HabitKey(hs[a]) && HabitKey(r[b]) == HabitKey(hs[b]);
      }
    }
  }

  /** Filtering keeps ids unique. */
  lemma FilterKeepsUniqueKeys<T>(s: seq<T>, key: T -> Id, p: T -> bool)
    requires UniqueKeys(s, key)
    ensures UniqueKeys(Filter(s, p), key)
  {
    FilterKeepsPairwise(s, p, DistinctKeys(key));
  }

  /** Removing a record keeps ids unique. */
  lemma RemoveAtKeepsUniqueKeys<T>(s: seq<T>, key: T -> Id, i: nat)
    requires i < |s| && UniqueKeys(s, key)
    ensures UniqueKeys(RemoveAt(s, i), key)
  {
    RemoveAtKeepsPairwise(s, i, DistinctKeys(key));
  }

  /** The habit returned by `FindOne` is one a lookup finds. */
  lemma FoundHabitResolves(s: Store, id: Id, userId: Id)
    requires FindOne(s, id, userId).Ok?
    ensures FindHabit(s.habits, id).Some?
  {
    var i :| 0 <= i < |s.habits| && s.habits[i] == FindOne(s, id, userId).value;
  }

  // ---------------------------------------------------------------- one lemma per writing operation

  lemma CreateKeepsWellFormed(s: Store, userId: Id, dto: CreateHabitDto, newId: Id, now: Instant)
    requires WellFormed(s)
    requires FindHabit(s.habits, newId).None?
    ensures WellFormed(Create(s, userId, dto, newId, now).store)
  {
    var h := Create(s, userId, dto, newId, now).result.value;
    AppendKeepsUniqueKeys(s.habits, HabitKey, h);
    forall i | 0 <= i < |s.checkIns|
      ensures FindHabit(s.habits + [h], s.checkIns[i].habitId).Some?
    {
      FindHabitAfterAppend(s.habits, h, s.checkIns[i].habitId);
    }
    forall i | 0 <= i < |s.timeEntries|
      ensures FindHabit(s.habits + [h], s.timeEntries[i].habitId).Some?
    {
      FindHabitAfterAppend(s.habits, h, s.timeEntries[i].habitId);
    }
  }

  lemma UpdateKeepsWellFormed(s: Store, id: Id, userId: Id, dto: UpdateHabitDto)
    requires WellFormed(s)
    ensures WellFormed(Update(s, id, userId, dto).store)
  {
    var r := Update(s, id, userId, dto);
    if r.result.Ok? {
      var i :| 0 <= i < |s.habits| && s.habits[i] == FindOne(s, id, userId).value
        && r.store == s.(habits := s.habits[i := r.result.value]);
      ReplaceKeepsIds(s.habits, i, r.result.value);
    }
  }

  lemma RemoveKeepsWellFormed(s: Store, id: Id, userId: Id)
    requires WellFormed(s)
    ensures WellFormed(Remove(s, id, userId).store)
  {
    var r := Remove(s, id, userId);
    if r.result.Ok? {
      var i :| 0 <= i < |s.habits| && s.habits[i] == r.result.value && r.store.habits == RemoveAt(s.habits, i);
      RemoveAtKeepsUniqueKeys(s.habits, HabitKey, i);
      FilterKeepsUniqueKeys(s.checkIns, CheckInKey, NotOfHabit(id, CheckInHabit));
      FilterKeepsUniqueKeys(s.timeEntries, TimeEntryKey, NotOfHabit(id, TimeEntryHabit));
      CascadeKeepsCheckInsResolving(s, i, id);
      CascadeKeepsTimeEntriesResolving(s, i, id);
    }
  }

  /** The check-ins that survive a habit's removal still reference existing habits. */
  lemma CascadeKeepsCheckInsResolving(s: Store, i: nat, id: Id)
    requires WellFormed(s)
    requires i < |s.habits| && s.habits[i].id == id
    ensures forall k :: 0 <= k < |Filter(s.checkIns, NotOfHabit(id, CheckInHabit))| ==>
      FindHabit(RemoveAt(s.habits, i), Filter(s.checkIns, NotOfHabit(id, CheckInHabit))[k].habitId).Some?
  {
    var f := Filter(s.checkIns, NotOfHabit(id, CheckInHabit));
    assert forall c :: c in s.checkIns ==> FindHabit(s.habits, c.habitId).Some?;
    forall k | 0 <= k < |f|
      ensures FindHabit(RemoveAt(s.habits, i), f[k].habitId).Some?
    {
      assert NotOfHabit(id, CheckInHabit)(f[k]);
      var j :| 0 <= j < |s.checkIns| && s.checkIns[j] == f[k];
      FindHabitAfterRemoveAt(s.habits, i, f[k].habitId);
    }
  }

  /** The time entries that survive a habit's removal still reference existing habits and stay valid. */
  lemma CascadeKeepsTimeEntriesResolving(s: Store, i: nat, id: Id)
    requires WellFormed(s)
    requires i < |s.habits| && s.habits[i].id == id
    ensures forall k :: 0 <= k < |Filter(s.timeEntries, NotOfHabit(id, TimeEntryHabit))| ==>
      && FindHabit(RemoveAt(s.habits, i), Filter(s.timeEntries, NotOfHabit(id, TimeEntryHabit))[k].habitId).Some?
      && ValidEntry(Filter(s.timeEntries, NotOfHabit(id, TimeEntryHabit))[k])
  {
    var f := Filter(s.timeEntries, NotOfHabit(id, TimeEntryHabit));
    assert forall t :: t in s.timeEntries ==> FindHabit(s.habits, t.habitId).Some? && ValidEntry(t);
    forall k | 0 <= k < |f|
      ensures FindHabit(RemoveAt(s.habits, i), f[k].habitId).Some? && ValidEntry(f[k])
    {
      assert NotOfHabit(id, TimeEntryHabit)(f[k]);
      var j :| 0 <= j < |s.timeEntries| && s.timeEntries[j] == f[k];
      FindHabitAfterRemoveAt(s.habits, i, f[k].habitId);
    }
  }

  lemma AddCheckInKeepsWellFormed(s: Store, habitId: Id, userId: Id, newId: Id, now: Instant)
    requires WellFormed(s)
    requires FreshCheckInId(s, newId)
    ensures WellFormed(AddCheckIn(s, habitId, userId, newId, now).store)
  {
    var r := AddCheckIn(s, habitId, userId, newId, now);
    if r.result.Ok? {
      AppendKeepsUniqueKeys(s.checkIns, CheckInKey, r.result.value);
      FoundHabitResolves(s, habitId, userId);
    }
  }

  lemma LogTimeKeepsWellFormed(s: Store, habitId: Id, userId: Id, dto: LogTimeDto, newId: Id)
    requires WellFormed(s)
    requires FreshTimeEntryId(s, newId)
    ensures WellFormed(LogTime(s, habitId, userId, dto, newId).store)
  {
    var r := LogTime(s, habitId, userId, dto, newId);
    if r.result.Ok? {
      AppendKeepsUniqueKeys(s.timeEntries, TimeEntryKey, r.result.value);
      FoundHabitResolves(s, habitId, userId);
      assert ValidEntry(r.result.value);
    }
  }

  lemma RemoveCheckInKeepsWellFormed(s: Store, id: Id, userId: Id)
    requires WellFormed(s)
    ensures WellFormed(RemoveCheckIn(s, id, userId).store)
  {
    var r := RemoveCheckIn(s, id, userId);
    if r.result.Ok? {
      var i :| 0 <= i < |s.checkIns| && s.checkIns[i] == r.result.value
        && r.store == s.(checkIns := RemoveAt(s.checkIns, i));
      CheckInRemovalKeepsWellFormed(s, i);
    }
  }

  /** Deleting the check-in at position `i` keeps the store well formed. */
  lemma CheckInRemovalKeepsWellFormed(s: Store, i: nat)
    requires WellFormed(s) && i < |s.checkIns|
    ensures WellFormed(s.(checkIns := RemoveAt(s.checkIns, i)))
  {
    var cs := RemoveAt(s.checkIns, i);
    RemoveAtKeepsUniqueKeys(s.checkIns, CheckInKey, i);
    forall k | 0 <= k < |cs|
      ensures FindHabit(s.habits, cs[k].habitId).Some?
    {
      var k' := if k < i then k else k + 1;
      assert cs[k] == s.checkIns[k'];
    }
  }

  lemma RemoveTimeEntryKeepsWellFormed(s: Store, id: Id, userId: Id)
    requires WellFormed(s)
    ensures WellFormed(RemoveTimeEntry(s, id, userId).store)
  {
    var r := RemoveTimeEntry(s, id, userId);
    if r.result.Ok? {
      var i :| 0 <= i < |s.timeEntries| && s.timeEntries[i] == r.result.value
        && r.store == s.(timeEntries := RemoveAt(s.timeEntries, i));
      TimeEntryRemovalKeepsWellFormed(s, i);
    }
  }

  /** Deleting the time entry at position `i` keeps the store well formed. */
  lemma TimeEntryRemovalKeepsWellFormed(s: Store, i: nat)
    requires WellFormed(s) && i < |s.timeEntries|
    ensures WellFormed(s.(timeEntries := RemoveAt(s.timeEntries, i)))
  {
    var ts := RemoveAt(s.timeEntries, i);
    RemoveAtKeepsUniqueKeys(s.timeEntries, TimeEntryKey, i);
    forall k | 0 <= k < |ts|
      ensures FindHabit(s.habits, ts[k].habitId).Some? && ValidEntry(ts[k])
    {
      var k' := if k < i then k else k + 1;
      assert ts[k] == s.timeEntries[k'];
    }
  }
}

=== FILE: update_habit_dto.dfy ===
/**
 * `updateHabitSchema = createHabitSchema.partial()`: every field of the create body
 * becomes optional, and a present field obeys the same rule as in the create body.
 */
module UpdateHabitSchema {
  import opened Wrappers
  import opened Domain
  import opened CreateHabitSchema

  datatype UpdateHabitInput = UpdateHabitInput(
    name: Option<string>,
    daysOfWeek: Option<seq<int>>,
    goalType: Option<string>,
    goalValue: Option<int>,
    reminderTimes: Option<seq<string>>)

  datatype UpdateHabitDto = UpdateHabitDto(
    name: Option<string>,
    daysOfWeek: Option<seq<int>>,
    goalType: Option<GoalType>,
    goalValue: Option<int>,
    reminderTimes: Option<seq<string>>)

  /** The body `{}`. */
  const EmptyUpdate := UpdateHabitInput(None, None, None, None, None)

  /** A create body seen as an update body in which every field is present. */
  function AsUpdate(c: CreateHabitInput): UpdateHabitInput {
    UpdateHabitInput(Some(c.name), Some(c.daysOfWeek), Some(c.goalType), Some(c.goalValue), c.reminderTimes)
  }

  /** An optional field passes when it is absent or when it satisfies `rule`. */
  predicate Present<T>(field: Option<T>, rule: T -> bool) {
    field.Some? ==> rule(field.value)
  }

  function GoalTypeParses(s: string): bool { ParseGoalType(s).Some? }

  function UpdateIssues(u: UpdateHabitInput): seq<string> {
    IssueIf(Present(u.name, NameOk), "name")
    + IssueIf(Present(u.daysOfWeek, DaysOfWeekOk), "days_of_week")
    + IssueIf(Present(u.goalType, GoalTypeParses), "goal_type")
    + IssueIf(Present(u.goalValue, GoalValueOk), "goal_value")
    + IssueIf(ReminderTimesOk(u.reminderTimes), "reminder_times")
  }

  function ParseGoalTypeField(g: Option<string>): Option<GoalType>
    requires Present(g, GoalTypeParses)
  {
    match g
    case Some(s) => Some(ParseGoalType(s).value)
    case None => None
  }

  /** `updateHabitSchema.parse`. */
  function ParseUpdateHabit(u: UpdateHabitInput): (r: Result<UpdateHabitDto, seq<string>>)
    ensures r.Ok? <==> UpdateIssues(u) == []
    ensures r.Err? ==> |r.error| >= 1
    ensures r.Err? ==> ("name" in r.error <==> u.name.Some? && !NameOk(u.name.value))
    ensures r.Err? ==> ("days_of_week" in r.error <==> u.daysOfWeek.Some? && !DaysOfWeekOk(u.daysOfWeek.value))
    ensures r.Err? ==> ("goal_type" in r.error <==> u.goalType.Some? && ParseGoalType(u.goalType.value).None?)
    ensures r.Err? ==> ("goal_value" in r.error <==> u.goalValue.Some? && !GoalValueOk(u.goalValue.value))
    ensures r.Err? ==> ("reminder_times" in r.error <==> !ReminderTimesOk(u.reminderTimes))
    ensures r.Ok? ==>
      && r.value.name == u.name && r.value.daysOfWeek == u.daysOfWeek
      && r.value.goalValue == u.goalValue && r.value.reminderTimes == u.reminderTimes
      && (r.value.goalType.Some? <==> u.goalType.Some?)
      && (r.value.goalType.Some? ==> GoalTypeName(r.value.goalType.value) == u.goalType.value)
  {
    var issues := UpdateIssues(u);
    UpdateIssuesName(u);
    if issues == [] then
      Ok(UpdateHabitDto(u.name, u.daysOfWeek, ParseGoalTypeField(u.goalType), u.goalValue, u.reminderTimes))
    else
      Err(issues)
  }

  /** Each field's path is among the issues exactly when that field is present and breaks its rule. */
  lemma UpdateIssuesName(u: UpdateHabitInput)
    ensures "name" in UpdateIssues(u) <==> !Present(u.name, NameOk)
    ensures "days_of_week" in UpdateIssues(u) <==> !Present(u.daysOfWeek, DaysOfWeekOk)
    ensures "goal_type" in UpdateIssues(u) <==> !Present(u.goalType, GoalTypeParses)
    ensures "goal_value" in UpdateIssues(u) <==> !Present(u.goalValue, GoalValueOk)
    ensures "reminder_times" in UpdateIssues(u) <==> !ReminderTimesOk(u.reminderTimes)
  {
    var a := IssueIf(Present(u.name, NameOk), "name");
    var b := IssueIf(Present(u.daysOfWeek, DaysOfWeekOk), "days_of_week");
    var c := IssueIf(Present(u.goalType, GoalTypeParses), "goal_type");
    var d := IssueIf(Present(u.goalValue, GoalValueOk), "goal_value");
    var e := IssueIf(ReminderTimesOk(u.reminderTimes), "reminder_times");
    assert UpdateIssues(u) == a + b + c + d + e;
    assert forall x :: x in a + b + c + d + e <==> x in a || x in b || x in c || x in d || x in e;
  }

  /** `{}` is a valid update, and it asks to change nothing. */
  lemma EmptyUpdateIsValid()
    ensures ParseUpdateHabit(EmptyUpdate) == Ok(UpdateHabitDto(None, None, None, None, None))
  {
  }

  /** With every field present, an update is valid exactly when the same create body is, with the same issues. */
  lemma FullUpdateMatchesCreate(c: CreateHabitInput)
    ensures ParseUpdateHabit(AsUpdate(c)).Ok? <==> ParseCreateHabit(c).Ok?
    ensures ParseUpdateHabit(AsUpdate(c)).Err? ==> ParseUpdateHabit(AsUpdate(c)).error == ParseCreateHabit(c).error
  {
    assert UpdateIssues(AsUpdate(c)) == CreateIssues(c);
  }

  /** The goal type is not exempt from the partial schema: an update may ask to change it. */
  lemma GoalTypeIsUpdatable(g: GoalType)
    ensures ParseUpdateHabit(UpdateHabitInput(None, None, Some(GoalTypeName(g)), None, None))
      == Ok(UpdateHabitDto(None, None, Some(g), None, None))
  {
    ParseGoalTypeRoundTrip(g);
  }
}

=== FILE: wrappers.dfy ===
/** Failure-compatible wrappers shared by the whole model. */
module Wrappers {

  /** An optional value: the model's stand-in for a field that may be `undefined`. */
  datatype Option<T> = None | Some(value: T) {

    /** The wrapped value, or `fallback` when absent (JavaScript's `x ?? fallback`). */
    function GetOr(fallback: T): T {
      match this
      case Some(v) => v
      case None => fallback
    }
  }

  /** Either a value or an error; an `Err` stands for a thrown exception or a rejected parse. */
  datatype Result<T, E> = Ok(value: T) | Err(error: E)
}
